=== FILE: README.md ===
# MPI work partitioning: a Dafny model of the index bookkeeping

The repository integrates a function numerically (midpoint rule) over a range
split among MPI processes, with three drivers:

- `static_sched.cpp`: each rank computes a precomputed block
  `[r*N/P, (r+1)*N/P)` of the `N` sample indices. Rank 0 then collects one
  partial sum from every other rank, in rank order.
- `dynamic_sched.cpp`: rank 0 is a controller that hands out chunks of 100
  indices on request. Once the indices are exhausted it answers with quits,
  and it stops after one quit per worker.
- `advnc_sched.cpp`: the controller keeps three chunks in flight per worker.
  It fills a `MaxProcessors x 3` slot table round-robin, then answers every
  report through the reporting worker's next slot, in the order 0, 1, 2, 0, …
  A worker leaves after its third quit with an Exiting report. The controller
  stops when every worker has left.

This project models what the three drivers share: the chunk generator
(`IsLoopDone` / `GetNextLoop`), the slot rotation, start-up validation, the
per-process controller and worker transitions, and the static block
partition. Each is a pure function over immutable records, and the lemmas
relate whole runs to the generator's chunk sequence.

Modules:

| file | module | contents |
|---|---|---|
| generator.dfy | Generator | cursor, `IsLoopDone`, `GetNextLoop`, the drained chunk sequence and its partition lemmas |
| quadrature.dfy | Quadrature | the workers' summation loop over an abstract per-index weight, exact sums |
| config.dfy | Config | integrand selection, advanced and dynamic validation, constants |
| messages.dfy | Messages | tags and messages as plain values |
| slot_table.dfy | SlotTable | `index2D` grid and `GetFreeChunkIndex` |
| advanced.dfy | Advanced | initial fill, steady-state step as written and corrected, runs, worker |
| dynamic.dfy | Dynamic | controller step and run, worker |
| static.dfy | Static | block partition, start-up, rank-0 collection |

The midpoint sample of index `i` is `f(a + (i + 0.5) * y, intensity) * y`.
The model treats it as an opaque weight `w(i)` (a parameter `int -> real`)
and adds with exact real arithmetic. The integrand, the floating-point types
and rounding are therefore outside the model.

Messages are `(tag, source or destination, payload)` values. A run is a
sequence of incoming messages given to a step function. The interleaving of
processes is left to that sequence: any order of reports may be supplied.

Points where the code departs from what its own comments lead one to
expect, which the model follows as written:

- The comment above the advanced controller (advnc_sched.cpp:187-198, step
  4) says available work is sent. Lines 300-313 send the previously
  generated chunk instead (see Findings).
- With a group of one, the code enters the receive loop at
  advnc_sched.cpp:282 and waits for an Exiting report that never arrives.
  `Advanced.ControllerStep` can stop only on an Exiting report, so the model
  does the same.
- An Exiting report that is not the last one is not only counted. The code
  adds its zero value to the sum and answers it through the next slot, like
  a result. Once the generator is exhausted, that answer is a quit to a worker
  that has already left.

## Model

| member | source | states |
|---|---|---|
| Generator.GetNextLoop | advnc_sched.cpp:480-487 | the chunk starts at the old cursor and the cursor moves to its end. The chunk is either full length or clipped to end exactly at N, and it never passes N. On an unfinished cursor the cursor strictly advances. On a finished one the chunk is empty and nothing moves |
| Generator.CursorAdvance | advnc_sched.cpp:457-462 | `IsLoopDone` holds exactly when every chunk of the sequence has been handed out. Each further call hands out the next chunk of the sequence |
| Generator.DrainLength | advnc_sched.cpp:457-487 | the guarded calls `while (!IsLoopDone) GetNextLoop` hand out exactly ceil((N - cursor) / G) chunks |
| Generator.DrainClosedForm | advnc_sched.cpp:480-487 | the k-th chunk handed out is `[cursor + k*G, min(cursor + (k+1)*G, N))` |
| Generator.DrainPartition | advnc_sched.cpp:451-492 | there are no chunks exactly when `IsLoopDone`. Otherwise the chunks are non-empty, lie in `[cursor, N)` and are consecutive. The first starts at the cursor and the last ends at N, and every chunk but the last has length G |
| Generator.DrainDisjoint | advnc_sched.cpp:480-487 | an earlier chunk ends no later than any later chunk starts, so chunks are pairwise disjoint |
| Generator.DrainCovers | advnc_sched.cpp:480-487 | an index lies in some chunk exactly when it lies in `[cursor, N)` |
| Quadrature.PartialSum | advnc_sched.cpp:405-411 | the worker's upward loop over `[Start, Stop)` computes the sum of the weights over that range, which is zero when the range is empty |
| Quadrature.ContributionSplit | advnc_sched.cpp:295 | sums over adjacent ranges add up to the sum over their union |
| Quadrature.DrainContribution | advnc_sched.cpp:295 | the partial sums of all the generator's chunks add up to the single-pass sum over `[cursor, N)` |
| Config.SelectIntegrand | advnc_sched.cpp:156-170 | ids 1..4 select the integrand with that id. Any other id is an invalid-function error |
| Config.ValidateAdvanced | advnc_sched.cpp:140-170 | fewer than 1000 points is rejected first. With enough points, an id outside 1..4 is rejected. Otherwise G is 10 exactly below 10000 points and 100 from there on, and 3 * 32 * G < N |
| Config.ValidateDynamic | dynamic_sched.cpp:121-137 | only the function id is checked and there is no lower bound on N. G is 100 |
| SlotTable.GetFreeChunkIndex | advnc_sched.cpp:498-509 | returns the node's current counter and advances it cyclically (0→1→2→0), with the result in [0,3). No other node's counter changes |
| SlotTable.RotationCycles | advnc_sched.cpp:498-509 | starting from 0, the k-th request for a node is answered with slot k mod 3, and the other nodes' counters stay put |
| Advanced.InitialFill | advnc_sched.cpp:259-279 | slot i of worker n receives chunk number i*(P-1)+(n-1) and is sent to n, in round-robin order, while chunks remain. Unused slots stay zero. min(3*(P-1), ceil(N/G)) chunks are issued, and the cursor owes the rest of the sequence |
| Advanced.FillRound | advnc_sched.cpp:260-278 | one pass of the inner loop over workers 1..P-1 extends the round-robin fill by one slot per worker while chunks remain, so after round i exactly min((i+1)*(P-1), ceil(N/G)) chunks are issued and the cursor is just past them |
| Advanced.FillNeverExhausts | advnc_sched.cpp:145-152 | for any accepted configuration with at most 32 ranks, the fill issues fewer chunks than the generator holds, so every slot is filled |
| Advanced.ControllerStep | advnc_sched.cpp:284-319 | an Exiting report stops the loop exactly when it brings the count to P-1. Any other report, including an earlier Exiting one, is added to the sum and answered through the reporting worker's rotated slot. The answer is work exactly while the generator has chunks left, and it carries the chunk generated by the previous call. No other slot or counter changes |
| Advanced.ControllerStepFixed | advnc_sched.cpp:298-313 | like ControllerStep, except that a work answer carries the chunk just generated, which is the next chunk of the sequence |
| Advanced.RunAsWrittenPayloads | advnc_sched.cpp:282-320 | over any report sequence, the work answers are the cursor's last chunk followed by the remaining chunks, each one message late. Answers are work exactly while chunks remain |
| Advanced.RunFixedPayloads | advnc_sched.cpp:282-320 | corrected: the work answers are exactly the remaining chunks in order, each once, and the answers are work exactly while chunks remain |
| Advanced.ReceiveLoop | advnc_sched.cpp:282-320 | the loop consumes one report per reply plus the Exiting report it stops on, and its exit counter grows by exactly the Exiting reports among those. It stops exactly when that counter reaches P-1 and never passes it; a counter already at P-1 or beyond (a group of one) never stops it. The k-th reply goes to the k-th report's sender. As written, the work it sends is the fill's last chunk followed by the remaining chunks, one behind; corrected, it is exactly the remaining chunks. Replies are work exactly while chunks remain, and the first as-written reply repeats the fill's last chunk |
| Advanced.RunControl | advnc_sched.cpp:284-298 | over any report sequence, with either step: reports consumed and the exit count as above, the stop exactly at P-1 Exiting reports, and each reply addressed to its report's sender |
| Advanced.RunStopsAtLastExit | advnc_sched.cpp:286-292 | the loop stops exactly when the exit counter reaches P-1, never passes it, and never stops when it starts at P-1 or beyond |
| Advanced.RunDests | advnc_sched.cpp:298-319 | the k-th reply of a run goes to the sender of the k-th report |
| Advanced.MasterWork | advnc_sched.cpp:204-320 | a configuration error sends nothing. Otherwise the fill issues 3*(P-1) chunks and the first steady-state work message repeats the fill's last chunk. No work message ever reaches index N-1 |
| Advanced.MasterWorkFixed | advnc_sched.cpp:204-320 | corrected: the fill's and the loop's work messages together are a prefix of the chunk sequence, each chunk once and in order. They are the whole sequence once enough reports have been answered |
| Advanced.DispatchedBeforeEnd | advnc_sched.cpp:300-313 | if the fill stops short of the last chunk, neither the fill's chunks nor the one-late loop chunks end at N |
| Advanced.AsWrittenEndsBefore | advnc_sched.cpp:259-313 | when the as-written receive loop sends the chunks one behind the generator, every chunk sent in the fill or the loop ends below N, so the final chunk is never dispatched |
| Advanced.RepeatedChunkExample | advnc_sched.cpp:300-313 | with N = 1000 and one worker, the first report is answered with [20,30) a second time, where the corrected step sends [30,40). The last chunk is [990,1000) |
| Advanced.WorkerStep | advnc_sched.cpp:395-439 | a work message is answered with the partial sum over its range. A quit bumps the counter, and the third quit sends a zero-valued Exiting report and leaves. Other tags are ignored |
| Advanced.WorkerLeavesAtThirdQuit | advnc_sched.cpp:393-440 | a worker leaves exactly at the message that brings its quit count to three. It answers each work message before that once, and its last report is Exiting 0 |
| Dynamic.ControllerStep | dynamic_sched.cpp:191-220 | each report gets exactly one answer, to its sender. The answer is work with the freshly generated chunk when chunks remain, and otherwise a quit that bumps the quit count. The loop stops exactly when the count equals P-1 |
| Dynamic.RunReplies | dynamic_sched.cpp:189-221 | over any report sequence, the work answers are the chunk sequence in order, each once. Quits come only after the last chunk, and the quit count grows by one per quit |
| Dynamic.RunPayloads | dynamic_sched.cpp:196-207 | the work messages of a run carry the generator's chunks in order, each once, as a prefix of the sequence |
| Dynamic.RunTags | dynamic_sched.cpp:196-213 | the k-th reply goes to the k-th report's sender and is work exactly when k is below the number of chunks |
| Dynamic.RunQuits | dynamic_sched.cpp:196-215 | the quit counter grows by exactly the number of replies sent after the chunks ran out |
| Dynamic.RunStops | dynamic_sched.cpp:209-220 | counting up from below, the loop stops exactly when the quit count reaches P-1 and never passes it |
| Dynamic.MasterWork | dynamic_sched.cpp:121-221 | an invalid id sends nothing. Otherwise the work messages are a prefix of the ceil(N/100) chunks, no quit precedes a work message, and the loop stops exactly after P-1 quits |
| Dynamic.WorkerStep | dynamic_sched.cpp:273-293 | a quit and nothing else ends the worker. A work message yields the partial sum over its range |
| Dynamic.WorkerLeavesAtFirstQuit | dynamic_sched.cpp:266-295 | a worker leaves exactly at its first quit, so it receives at most one. It sends one opening request plus one report per message consumed before leaving, and each work message gets its partial sum |
| Static.CDiv | static_sched.cpp:119-120 | C division by a positive divisor: the remainder a - q*b has the sign of the dividend and is smaller than the divisor in magnitude, so the quotient truncates toward zero |
| Static.Setup | static_sched.cpp:102-120 | an invalid id fails before any block is computed. Otherwise rank r gets the block [StartIndex(r), StopIndex(r)), which for N ≥ 0 and 0 ≤ r < P is [floor(r*N/P), floor((r+1)*N/P)), so the partition lemmas apply to it. That block lies in [0, N), has length floor(N/P) or ceil(N/P), rank 0 starts at 0 and rank P-1 ends at N |
| Static.BlockBounds | static_sched.cpp:119-120 | 0 ≤ Start(r) ≤ Stop(r) ≤ N, the length is floor(N/P) or ceil(N/P), Start(0) = 0 and Stop(P-1) = N |
| Static.BlockLength | static_sched.cpp:119-120 | a block of the even split has floor(N/P) or ceil(N/P) points |
| Static.BlocksMeet | static_sched.cpp:119-120 | Stop(r) = Start(r+1): adjacent blocks meet exactly |
| Static.OwnerExists | static_sched.cpp:119-120 | every index below Stop(r) lies in the block of some rank ≤ r |
| Static.BlocksPartition | static_sched.cpp:119-135 | an index lies in some rank's block exactly when it lies in [0, N), and blocks of different ranks do not overlap |
| Static.CollectOnRankZero | static_sched.cpp:135-152 | rank 0 receives from ranks 1..P-1 once each, in rank order, and its total equals the single-pass sum over [0, N) |

## Left out

- MPI transport: `MPI_Isend`, `MPI_Send` and `MPI_Recv`, datatype construction, request handles and barriers. Messages are plain values passed to step functions.
- The interleaving of processes and global liveness. Only per-process sequential transitions are modelled. Report sequences are arbitrary, so no claim is made that every worker eventually receives its three quits.
- The buffer-reuse hazard of unwaited `Isend`s (advnc_sched.cpp:413-416): values are immutable here, so a later write cannot reach an earlier message.
- Floating-point arithmetic and the integrands `f1`..`f4`, which belong to an external library. Weights are an abstract `int -> real` and sums are exact, so summation order and rounding are not modelled.
- Timing with `std::chrono`, printing, debug logging, and the `argc < 6` usage check with `atoi`/`atof` parsing. Inputs are already-parsed integers.
- Machine widths: indices are unbounded integers. The dynamic driver's 32-bit `int` cursor, the static driver's 32-bit `(r+1)*N` and its `float` block bounds (exact only below 2^24) are not modelled.
- Advanced.ControllerStep: requires at most 32 ranks and a report from a worker rank (1..P-1). Beyond 32 ranks the source writes past its fixed-size tables.
- Dynamic.ControllerStep: a quit carries the chunk generated last. In the source, a quit sent before any work carries the uninitialised `Index` buffer. The worker ignores the payload either way.
- Dynamic.MasterWork: states nothing about the chunk sequence for a negative point count. The source then hands out one empty range `[0, N)` and quits afterwards.
- Static.Setup: states the block as C's truncating quotients for every input, but its floor-quotient form, bounds and lengths only for N ≥ 0 and 0 ≤ r < P.

## Findings

| source | as written | input that shows it | evidently intended | confidence | as-written member | corrected member |
|---|---|---|---|---|---|---|
| advnc_sched.cpp:300-313 | the reused slot is loaded from `ThreadInfo`'s Start/Stop before `GetNextLoop`, so every steady-state work message carries the previously generated chunk | N = 1000, one worker: the fill sends [0,10), [10,20), [20,30). The first report is answered with [20,30) again, and [990,1000) is never sent to any worker, so those points are never integrated | load the slot after `GetNextLoop`, as dynamic_sched.cpp:200-203 does, so each chunk is sent exactly once | high (not executed) | Advanced.RepeatedChunkExample | Advanced.MasterWorkFixed |

The as-written side of the finding is `Advanced.ControllerStep`. On its own
runs, `Advanced.RunAsWrittenPayloads` shows the one-message lag and
`Advanced.MasterWork` shows that index N-1 is never dispatched. The corrected
side is `Advanced.ControllerStepFixed`, and `Advanced.RunFixedPayloads` and
`Advanced.MasterWorkFixed` prove that every chunk is dispatched once, in
order.

=== FILE: advanced.dfy ===
/** The advanced driver (advnc_sched.cpp): the controller fills every worker's
    three slots round-robin, then answers each report with a chunk or a quit
    sent through the reporting worker's next slot; a worker leaves after its
    third quit and the controller stops once every worker has left. */
module Advanced {
  import opened Generator
  import opened Config
  import opened SlotTable
  import opened Messages
  import opened Quadrature

  /** The controller's state: the generator cursor, the slot table, the
      rotation counters, the number of Exiting reports seen, the group size
      and the running sum. */
  datatype Controller = Controller(
    gen: Cursor, grid: Grid, rotation: seq<int>, exits: int, commSize: int, total: real)

  /** The controller either stops, or answers the report with one message. */
  datatype Step = Stopped(final: Controller) | Reply(next: Controller, out: ToWorker)

  /** Invariant of every reachable controller state. The group fits the
      fixed-size tables, and the cursor's last chunk ends where the cursor
      stands (true of the zeroed cursor and after every GetNextLoop). */
  predicate Valid(s: Controller)
  {
    && 1 <= s.commSize <= MaxProcessors
    && GridShape(s.grid)
    && RotationOk(s.rotation)
    && Ready(s.gen)
    && s.gen.stop == s.gen.completed
  }

  /** A report comes from a worker rank. */
  predicate FromWorker(s: Controller, m: Report)
  {
    1 <= m.source < s.commSize
  }

  /** Slot i of node n is filled in round i, after the nodes before it. */
  function FillOrder(commSize: int, i: int, n: int): (k: int)
    ensures 0 <= i && 1 <= n && 1 <= commSize ==> 0 <= k
  {
    i * (commSize - 1) + (n - 1)
  }

  /** The worker that receives the k-th chunk of the fill. */
  function FillDest(commSize: int, k: int): int
    requires commSize >= 2
  {
    k % (commSize - 1) + 1
  }

  /** What slot i of node n holds once `count` chunks have been filled in. */
  function Expected(commSize: int, d: seq<Chunk>, count: int, i: int, n: int): Chunk
  {
    if 1 <= n < commSize && 0 <= FillOrder(commSize, i, n) < count && count <= |d| then d[FillOrder(commSize, i, n)]
    else Zero
  }

  /** The slot table and the messages sent after the first |sent| chunks of
      d have been filled in. */
  ghost predicate Filled(commSize: int, d: seq<Chunk>, grid: Grid, sent: seq<ToWorker>)
  {
    && 2 <= commSize
    && |sent| <= |d|
    && GridShape(grid)
    && (forall i, n :: 0 <= i < MaxChunk && 0 <= n < MaxProcessors ==>
          grid[n][i] == Expected(commSize, d, |sent|, i, n))
    && (forall k :: 0 <= k < |sent| ==> sent[k] == ToWorker(FillDest(commSize, k), WorkAvailable, d[k]))
  }

  /** Filling slot i of node `node` with the next chunk keeps Filled. */
  lemma {:induction false} FillOne(commSize: int, d: seq<Chunk>, grid: Grid, sent: seq<ToWorker>, i: int, node: int)
    requires Filled(commSize, d, grid, sent)
    requires 0 <= i < MaxChunk && 1 <= node < commSize <= MaxProcessors
    requires |sent| == FillOrder(commSize, i, node) < |d|
    ensures Filled(commSize, d, SetSlot(grid, node, i, d[|sent|]),
                   sent + [ToWorker(node, WorkAvailable, d[|sent|])])
  {
    var k := |sent|;
    var grid' := SetSlot(grid, node, i, d[k]);
    var sent' := sent + [ToWorker(node, WorkAvailable, d[k])];
    forall i', n | 0 <= i' < MaxChunk && 0 <= n < MaxProcessors
      ensures grid'[n][i'] == Expected(commSize, d, k + 1, i', n)
    {
      if (n, i') != (node, i) {
        assert grid'[n][i'] == grid[n][i'];
        if 1 <= n < commSize {
          FillOrderInjective(commSize, i, node, i', n);
        }
      }
    }
    ModUnique(k, commSize - 1, i, node - 1);
  }

  /** Remainder by a positive divisor is determined by quotient and remainder. */
  lemma {:induction false} ModUnique(a: int, g: int, q: int, r: int)
    requires g >= 1 && 0 <= r < g && a == q * g + r
    ensures a % g == r
  {
    DivUnique(a, g, q, r);
  }

  /** The initial fill: for each slot i < 3 and each worker 1 <= n < commSize,
      while chunks remain, hand out the next chunk, store it in slot i of n
      and send it to n. With no workers nothing is sent. */
  method InitialFill(c0: Cursor, commSize: int) returns (s: Controller, sent: seq<ToWorker>)
    requires Ready(c0) && c0.stop == c0.completed
    requires 1 <= commSize <= MaxProcessors
    ensures Valid(s) && s.commSize == commSize
    ensures s.exits == 0 && s.total == 0.0 && s.rotation == ZeroRotation()
    ensures |sent| == Min(MaxChunk * (commSize - 1), |Drain(c0)|)
    ensures |sent| == Min(MaxChunk * (commSize - 1), NumChunks(c0))
    ensures Drain(s.gen) == Drain(c0)[|sent|..]
    ensures |sent| > 0 ==> Last(s.gen) == Drain(c0)[|sent| - 1]
    ensures |sent| == 0 ==> s.gen == c0
    ensures forall k :: 0 <= k < |sent| ==>
      sent[k].tag == WorkAvailable && sent[k].payload == Drain(c0)[k] && 1 <= sent[k].dest < commSize
    ensures forall i, n :: 0 <= i < MaxChunk && 1 <= n < commSize && FillOrder(commSize, i, n) < |sent| ==>
      s.grid[n][i] == Drain(c0)[FillOrder(commSize, i, n)] &&
      sent[FillOrder(commSize, i, n)] == ToWorker(n, WorkAvailable, s.grid[n][i])
    ensures forall i, n ::
      (0 <= i < MaxChunk && 0 <= n < MaxProcessors && (n == 0 || n >= commSize || FillOrder(commSize, i, n) >= |sent|))
      ==> s.grid[n][i] == Zero
  {
    ghost var d := Drain(c0);
    DrainLength(c0);
    var gen := c0;
    var grid := EmptyGrid();
    sent := [];
    if commSize == 1 {
      s := Controller(gen, grid, ZeroRotation(), 0, commSize, 0.0);
      return;
    }
    var i := 0;
    while i < MaxChunk
      invariant 0 <= i <= MaxChunk
      invariant CursorAt(c0, gen, |sent|)
      invariant Filled(commSize, d, grid, sent)
      invariant |sent| == Min(i * (commSize - 1), |d|)
    {
      gen, grid, sent := FillRound(c0, commSize, i, gen, grid, sent);
      MulSucc(i, commSize - 1);
      i := i + 1;
    }
    s := Controller(gen, grid, ZeroRotation(), 0, commSize, 0.0);
    FilledMeans(commSize, d, grid, sent);
  }

  /** Round i of the fill: slot i of workers 1 .. commSize - 1, in rank
      order, each taking the next chunk while chunks remain. */
  method FillRound(ghost c0: Cursor, commSize: int, i: int, gen: Cursor, grid: Grid, sent: seq<ToWorker>)
    returns (gen': Cursor, grid': Grid, sent': seq<ToWorker>)
    requires 2 <= commSize <= MaxProcessors && 0 <= i < MaxChunk
    requires CursorAt(c0, gen, |sent|) && Filled(commSize, Drain(c0), grid, sent)
    requires |sent| == Min(i * (commSize - 1), |Drain(c0)|)
    ensures CursorAt(c0, gen', |sent'|) && Filled(commSize, Drain(c0), grid', sent')
    ensures |sent'| == Min(i * (commSize - 1) + (commSize - 1), |Drain(c0)|)
  {
    ghost var d := Drain(c0);
    gen', grid', sent' := gen, grid, sent;
    var node := 1;
    while node < commSize
      invariant 1 <= node <= commSize
      invariant CursorAt(c0, gen', |sent'|)
      invariant Filled(commSize, d, grid', sent')
      invariant |sent'| == Min(i * (commSize - 1) + node - 1, |d|)
    {
      CursorAdvance(c0, gen', |sent'|);
      if !IsLoopDone(gen') {
        FillOne(commSize, d, grid', sent', i, node);
        gen' := GetNextLoop(gen');
        grid' := SetSlot(grid', node, i, Last(gen'));
        sent' := sent' + [ToWorker(node, WorkAvailable, Last(gen'))];
      }
      node := node + 1;
    }
  }

  lemma {:induction false} MulSucc(i: int, w: int)
    ensures (i + 1) * w == i * w + w
  {
  }

  /** Filled spelled out per slot. */
  lemma {:induction false} FilledMeans(commSize: int, d: seq<Chunk>, grid: Grid, sent: seq<ToWorker>)
    requires Filled(commSize, d, grid, sent) && commSize <= MaxProcessors
    ensures forall k :: 0 <= k < |sent| ==>
      sent[k].tag == WorkAvailable && sent[k].payload == d[k] && 1 <= sent[k].dest < commSize
    ensures forall i, n :: 0 <= i < MaxChunk && 1 <= n < commSize && FillOrder(commSize, i, n) < |sent| ==>
      grid[n][i] == d[FillOrder(commSize, i, n)] &&
      sent[FillOrder(commSize, i, n)] == ToWorker(n, WorkAvailable, grid[n][i])
    ensures forall i, n ::
      (0 <= i < MaxChunk && 0 <= n < MaxProcessors && (n == 0 || n >= commSize || FillOrder(commSize, i, n) >= |sent|))
      ==> grid[n][i] == Zero
  {
    forall i, n | 0 <= i < MaxChunk && 1 <= n < commSize && FillOrder(commSize, i, n) < |sent|
      ensures sent[FillOrder(commSize, i, n)] == ToWorker(n, WorkAvailable, grid[n][i])
    {
      ModUnique(FillOrder(commSize, i, n), commSize - 1, i, n - 1);
    }
  }

  /** Different slots have different fill positions: a slot of an earlier
      round, or of a lower rank in the same round, is filled earlier. */
  lemma {:induction false} FillOrderInjective(commSize: int, i: int, n: int, i': int, n': int)
    requires 0 <= i && 0 <= i' && 1 <= n < commSize && 1 <= n' < commSize
    requires (i', n') != (i, n)
    ensures FillOrder(commSize, i', n') != FillOrder(commSize, i, n)
  {
    if i' < i {
      MulMono(i' + 1, i, commSize - 1);
      MulSucc(i', commSize - 1);
    } else if i < i' {
      MulMono(i + 1, i', commSize - 1);
      MulSucc(i, commSize - 1);
    }
  }

  /** One pass of the controller's receive loop, as written. An Exiting
      report that completes the count stops the loop; any other report,
      including an earlier Exiting one, is added to the sum and answered
      through the reporting worker's next slot. The slot is loaded with the
      cursor's last chunk BEFORE GetNextLoop runs, so a work message carries
      the chunk generated by the previous call; once the generator is
      exhausted a quit goes out through the same rotated slot. */
  function ControllerStep(s: Controller, m: Report): (r: Step)
    requires Valid(s) && FromWorker(s, m)
    ensures r.Stopped? <==> m.tag == Exiting && s.exits + 1 == s.commSize - 1
    ensures r.Stopped? ==> r.final == s.(exits := s.commSize - 1)
    ensures r.Reply? ==> Valid(r.next) && r.next.commSize == s.commSize
    ensures r.Reply? ==> r.next.exits == (if m.tag == Exiting then s.exits + 1 else s.exits)
    ensures r.Reply? ==> r.next.total == s.total + m.value
    ensures r.Reply? ==> r.out.dest == m.source && r.out.payload == Last(s.gen)
    ensures r.Reply? ==> (r.out.tag == WorkAvailable <==> !IsLoopDone(s.gen))
    ensures r.Reply? ==> (r.out.tag == Quit <==> IsLoopDone(s.gen))
    ensures r.Reply? && !IsLoopDone(s.gen) ==> r.next.gen == GetNextLoop(s.gen) && r.out.payload.stop < s.gen.points
    ensures r.Reply? && IsLoopDone(s.gen) ==> r.next.gen == s.gen
    ensures r.Reply? ==> r.next.grid[m.source][s.rotation[m.source]] == r.out.payload
    ensures r.Reply? ==> r.next.rotation[m.source] == (s.rotation[m.source] + 1) % MaxChunk
    ensures r.Reply? ==> forall n :: 0 <= n < MaxProcessors && n != m.source ==> r.next.rotation[n] == s.rotation[n]
    ensures r.Reply? ==> forall n, j :: 0 <= n < MaxProcessors && 0 <= j < MaxChunk && (n, j) != (m.source, s.rotation[m.source]) ==>
      r.next.grid[n][j] == s.grid[n][j]
  {
    var exits := if m.tag == Exiting then s.exits + 1 else s.exits;
    if m.tag == Exiting && exits == s.commSize - 1 then Stopped(s.(exits := exits))
    else
      var total := s.total + m.value;
      var (slot, rotation) := GetFreeChunkIndex(m.source, s.rotation);
      var grid := SetSlot(s.grid, m.source, slot, Last(s.gen));
      if !IsLoopDone(s.gen) then
        Reply(Controller(GetNextLoop(s.gen), grid, rotation, exits, s.commSize, total),
              ToWorker(m.source, WorkAvailable, grid[m.source][slot]))
      else
        Reply(Controller(s.gen, grid, rotation, exits, s.commSize, total),
              ToWorker(m.source, Quit, grid[m.source][slot]))
  }

  /** The receive loop with the slot loaded AFTER GetNextLoop, so that a
      work message carries the chunk just generated. Everything else is as
      in ControllerStep. */
  function ControllerStepFixed(s: Controller, m: Report): (r: Step)
    requires Valid(s) && FromWorker(s, m)
    ensures r.Stopped? <==> m.tag == Exiting && s.exits + 1 == s.commSize - 1
    ensures r.Stopped? ==> r.final == s.(exits := s.commSize - 1)
    ensures r.Reply? ==> Valid(r.next) && r.next.commSize == s.commSize
    ensures r.Reply? ==> r.next.exits == (if m.tag == Exiting then s.exits + 1 else s.exits)
    ensures r.Reply? ==> r.next.total == s.total + m.value
    ensures r.Reply? ==> r.out.dest == m.source
    ensures r.Reply? ==> (r.out.tag == WorkAvailable <==> !IsLoopDone(s.gen))
    ensures r.Reply? ==> (r.out.tag == Quit <==> IsLoopDone(s.gen))
    ensures r.Reply? && !IsLoopDone(s.gen) ==>
      r.next.gen == GetNextLoop(s.gen) && r.out.payload == Last(r.next.gen) && r.out.payload == Drain(s.gen)[0]
    ensures r.Reply? && IsLoopDone(s.gen) ==> r.next.gen == s.gen
    ensures r.Reply? ==> r.next.grid[m.source][s.rotation[m.source]] == r.out.payload
    ensures r.Reply? ==> r.next.rotation[m.source] == (s.rotation[m.source] + 1) % MaxChunk
    ensures r.Reply? ==> forall n :: 0 <= n < MaxProcessors && n != m.source ==> r.next.rotation[n] == s.rotation[n]
    ensures r.Reply? ==> forall n, j :: 0 <= n < MaxProcessors && 0 <= j < MaxChunk && (n, j) != (m.source, s.rotation[m.source]) ==>
      r.next.grid[n][j] == s.grid[n][j]
  {
    var exits := if m.tag == Exiting then s.exits + 1 else s.exits;
    if m.tag == Exiting && exits == s.commSize - 1 then Stopped(s.(exits := exits))
    else
      var total := s.total + m.value;
      var (slot, rotation) := GetFreeChunkIndex(m.source, s.rotation);
      if !IsLoopDone(s.gen) then
        var gen := GetNextLoop(s.gen);
        var grid := SetSlot(s.grid, m.source, slot, Last(gen));
        DrainStep(s.gen);
        Reply(Controller(gen, grid, rotation, exits, s.commSize, total),
              ToWorker(m.source, WorkAvailable, grid[m.source][slot]))
      else
        var grid := SetSlot(s.grid, m.source, slot, Last(s.gen));
        Reply(Controller(s.gen, grid, rotation, exits, s.commSize, total),
              ToWorker(m.source, Quit, grid[m.source][slot]))
  }

  /** Every report in the sequence comes from a worker rank. */
  predicate AllFromWorkers(commSize: int, msgs: seq<Report>)
  {
    forall k :: 0 <= k < |msgs| ==> 1 <= msgs[k].source < commSize
  }

  /** What the receive loop sends while it consumes a sequence of reports,
      the state it ends in and whether it stopped. */
  datatype Trace = Trace(out: seq<ToWorker>, final: Controller, stopped: bool)

  /** The receive loop run over a sequence of reports, with the as-written
      step (fixed == false) or the corrected one (fixed == true). */
  function Run(s: Controller, msgs: seq<Report>, fixed: bool): (t: Trace)
    requires Valid(s) && AllFromWorkers(s.commSize, msgs)
    ensures Valid(t.final) && t.final.commSize == s.commSize
    ensures |t.out| <= |msgs|
    ensures !t.stopped ==> |t.out| == |msgs|
    ensures t.stopped ==> t.final.exits == s.commSize - 1
    decreases |msgs|
  {
    if msgs == [] then Trace([], s, false)
    else
      var step := if fixed then ControllerStepFixed(s, msgs[0]) else ControllerStep(s, msgs[0]);
      match step
      case Stopped(f) => Trace([], f, true)
      case Reply(n, o) =>
        var t := Run(n, msgs[1..], fixed);
        Trace([o] + t.out, t.final, t.stopped)
  }

  /** Number of reports tagged Exiting. */
  function ExitingCount(msgs: seq<Report>): (n: nat)
    ensures n <= |msgs|
  {
    if msgs == [] then 0 else (if msgs[0].tag == Exiting then 1 else 0) + ExitingCount(msgs[1..])
  }

  /** The loop consumes one report per reply, plus the report it stops on,
      and its exit counter grows by the Exiting reports among those. */
  lemma {:induction false} RunExits(s: Controller, msgs: seq<Report>, fixed: bool)
    requires Valid(s) && AllFromWorkers(s.commSize, msgs)
    ensures ExitsCounted(s, msgs, fixed)
    decreases |msgs|
  {
    if msgs != [] {
      var step := StepWith(s, msgs[0], fixed);
      if step.Stopped? {
        RunExitsStopped(s, msgs, fixed);
      } else {
        RunExits(step.next, msgs[1..], fixed);
        RunExitsReply(s, msgs, fixed);
      }
    }
  }

  /** The controller's step, as written or corrected. */
  function StepWith(s: Controller, m: Report, fixed: bool): Step
    requires Valid(s) && FromWorker(s, m)
  {
    if fixed then ControllerStepFixed(s, m) else ControllerStep(s, m)
  }

  /** What RunExits states of one run: the reports consumed (one per reply,
      plus the one the loop stops on) and the exit counter's growth. */
  predicate ExitsCounted(s: Controller, msgs: seq<Report>, fixed: bool)
    requires Valid(s) && AllFromWorkers(s.commSize, msgs)
  {
    var t := Run(s, msgs, fixed);
    var k := |t.out| + (if t.stopped then 1 else 0);
    k <= |msgs| && t.final.exits == s.exits + ExitingCount(msgs[..k])
  }

  lemma {:induction false} RunExitsStopped(s: Controller, msgs: seq<Report>, fixed: bool)
    requires Valid(s) && AllFromWorkers(s.commSize, msgs)
    requires msgs != [] && StepWith(s, msgs[0], fixed).Stopped?
    ensures ExitsCounted(s, msgs, fixed)
  {
    var f := StepWith(s, msgs[0], fixed).final;
    assert Run(s, msgs, fixed) == Trace([], f, true);
    ExitingCountCons(msgs, 1);
  }

  lemma {:induction false} RunExitsReply(s: Controller, msgs: seq<Report>, fixed: bool)
    requires Valid(s) && AllFromWorkers(s.commSize, msgs)
    requires msgs != [] && StepWith(s, msgs[0], fixed).Reply?
    requires ExitsCounted(StepWith(s, msgs[0], fixed).next, msgs[1..], fixed)
    ensures ExitsCounted(s, msgs, fixed)
  {
    var n := StepWith(s, msgs[0], fixed).next;
    var o := StepWith(s, msgs[0], fixed).out;
    var t' := Run(n, msgs[1..], fixed);
    assert Run(s, msgs, fixed) == Trace([o] + t'.out, t'.final, t'.stopped);
    ExitingCountCons(msgs, |t'.out| + (if t'.stopped then 1 else 0) + 1);
  }

  /** Counting Exiting reports in a non-empty prefix: the first report, then
      the rest of the prefix. */
  lemma {:induction false} ExitingCountCons(msgs: seq<Report>, k: nat)
    requires 1 <= k <= |msgs|
    ensures ExitingCount(msgs[..k]) == (if msgs[0].tag == Exiting then 1 else 0) + ExitingCount(msgs[1..][..k - 1])
  {
    assert msgs[..k][1..] == msgs[1..][..k - 1];
  }

  /** The loop stops exactly when the exit counter reaches P - 1, which it
      never passes; a counter that starts at or beyond P - 1 (a group of one)
      never stops the loop. */
  lemma {:induction false} RunStopsAtLastExit(s: Controller, msgs: seq<Report>, fixed: bool)
    requires Valid(s) && AllFromWorkers(s.commSize, msgs)
    ensures var t := Run(s, msgs, fixed);
      t.stopped <==> s.exits < s.commSize - 1 && t.final.exits == s.commSize - 1
    ensures var t := Run(s, msgs, fixed);
      s.exits < s.commSize - 1 ==> t.final.exits <= s.commSize - 1
    decreases |msgs|
  {
    if msgs != [] {
      var step := if fixed then ControllerStepFixed(s, msgs[0]) else ControllerStep(s, msgs[0]);
      match step
      case Stopped(f) =>
      case Reply(n, o) =>
        RunStopsAtLastExit(n, msgs[1..], fixed);
        RunExitsGrow(n, msgs[1..], fixed);
    }
  }

  /** The exit counter never decreases over a run. */
  lemma {:induction false} RunExitsGrow(s: Controller, msgs: seq<Report>, fixed: bool)
    requires Valid(s) && AllFromWorkers(s.commSize, msgs)
    ensures s.exits <= Run(s, msgs, fixed).final.exits
  {
    RunExits(s, msgs, fixed);
    assert ExitsCounted(s, msgs, fixed);
  }

  /** The k-th reply goes to the sender of the k-th report. */
  lemma {:induction false} RunDests(s: Controller, msgs: seq<Report>, fixed: bool)
    requires Valid(s) && AllFromWorkers(s.commSize, msgs)
    ensures var t := Run(s, msgs, fixed);
      forall k :: 0 <= k < |t.out| ==> t.out[k].dest == msgs[k].source
    decreases |msgs|
  {
    if msgs != [] {
      var step := StepWith(s, msgs[0], fixed);
      if step.Reply? {
        RunDests(step.next, msgs[1..], fixed);
        RunDestsReply(s, msgs, fixed);
      }
    }
  }

  lemma {:induction false} RunDestsReply(s: Controller, msgs: seq<Report>, fixed: bool)
    requires Valid(s) && AllFromWorkers(s.commSize, msgs)
    requires msgs != [] && StepWith(s, msgs[0], fixed).Reply?
    requires var t' := Run(StepWith(s, msgs[0], fixed).next, msgs[1..], fixed);
      forall k :: 0 <= k < |t'.out| ==> t'.out[k].dest == msgs[1..][k].source
    ensures var t := Run(s, msgs, fixed);
      forall k :: 0 <= k < |t.out| ==> t.out[k].dest == msgs[k].source
  {
    var n := StepWith(s, msgs[0], fixed).next;
    var o := StepWith(s, msgs[0], fixed).out;
    var t' := Run(n, msgs[1..], fixed);
    var t := Run(s, msgs, fixed);
    assert t == Trace([o] + t'.out, t'.final, t'.stopped);
    forall k | 1 <= k < |t.out|
      ensures t.out[k].dest == msgs[k].source
    {
      assert t.out[k] == t'.out[k - 1];
      assert msgs[k] == msgs[1..][k - 1];
    }
  }

  /** The receive loop's control facts about one run: reports consumed, the
      exit counter, where the loop stops and whom each reply goes to. */
  lemma {:induction false} RunControl(s: Controller, msgs: seq<Report>, fixed: bool, t: Trace)
    requires Valid(s) && AllFromWorkers(s.commSize, msgs) && t == Run(s, msgs, fixed)
    ensures var k := |t.out| + (if t.stopped then 1 else 0);
      k <= |msgs| && t.final.exits == s.exits + ExitingCount(msgs[..k])
    ensures t.stopped <==> s.exits < s.commSize - 1 && t.final.exits == s.commSize - 1
    ensures s.exits < s.commSize - 1 ==> t.final.exits <= s.commSize - 1
    ensures forall k :: 0 <= k < |t.out| ==> t.out[k].dest == msgs[k].source
  {
    RunExits(s, msgs, fixed);
    RunStopsAtLastExit(s, msgs, fixed);
    RunDests(s, msgs, fixed);
  }

  /** As written, the work messages carry the chunk the cursor held when the
      loop started, followed by the generator's remaining chunks: one
      message behind, so the last remaining chunk is never sent. Replies are
      work messages exactly while the generator has chunks left. */
  lemma {:induction false} RunAsWrittenPayloads(s: Controller, msgs: seq<Report>)
    requires Valid(s) && AllFromWorkers(s.commSize, msgs)
    ensures var t := Run(s, msgs, false);
      WorkPayloads(t.out) == ([Last(s.gen)] + Drain(s.gen))[..Min(|t.out|, |Drain(s.gen)|)]
    ensures var t := Run(s, msgs, false);
      forall k :: 0 <= k < |t.out| ==> (t.out[k].tag == WorkAvailable <==> k < |Drain(s.gen)|)
    decreases |msgs|
  {
    if msgs != [] {
      var step := ControllerStep(s, msgs[0]);
      if step.Reply? {
        var n, o := step.next, step.out;
        var d := Drain(s.gen);
        assert AllFromWorkers(n.commSize, msgs[1..]);
        RunAsWrittenPayloads(n, msgs[1..]);
        var t := Run(n, msgs[1..], false);
        var out := [o] + t.out;
        assert Run(s, msgs, false).out == out;
        if !IsLoopDone(s.gen) {
          DrainStep(s.gen);
          assert [Last(n.gen)] + Drain(n.gen) == d;
          assert WorkPayloads(out) == [Last(s.gen)] + WorkPayloads(t.out) by {
            assert out[1..] == t.out;
          }
          ConsPrefix(Last(s.gen), d, Min(|t.out|, |d| - 1));
          ShiftedTags(o, t.out, |d|);
        } else {
          assert d == [];
          assert WorkPayloads(out) == WorkPayloads(t.out) by {
            assert out[1..] == t.out;
          }
          ShiftedTags(o, t.out, |d|);
        }
      }
    }
  }

  /** Corrected, the work messages carry the generator's remaining chunks
      in order, each once, and replies are work messages exactly while the
      generator has chunks left. */
  lemma {:induction false} RunFixedPayloads(s: Controller, msgs: seq<Report>)
    requires Valid(s) && AllFromWorkers(s.commSize, msgs)
    ensures var t := Run(s, msgs, true);
      WorkPayloads(t.out) == Drain(s.gen)[..Min(|t.out|, |Drain(s.gen)|)]
    ensures var t := Run(s, msgs, true);
      forall k :: 0 <= k < |t.out| ==> (t.out[k].tag == WorkAvailable <==> k < |Drain(s.gen)|)
    decreases |msgs|
  {
    if msgs != [] {
      var step := ControllerStepFixed(s, msgs[0]);
      if step.Reply? {
        var n, o := step.next, step.out;
        var d := Drain(s.gen);
        assert AllFromWorkers(n.commSize, msgs[1..]);
        RunFixedPayloads(n, msgs[1..]);
        var t := Run(n, msgs[1..], true);
        var out := [o] + t.out;
        assert Run(s, msgs, true).out == out;
        if !IsLoopDone(s.gen) {
          DrainStep(s.gen);
          assert d == [d[0]] + Drain(n.gen);
          assert WorkPayloads(out) == [d[0]] + WorkPayloads(t.out) by {
            assert out[1..] == t.out;
          }
          ConsPrefix(d[0], Drain(n.gen), Min(|t.out|, |d| - 1));
          ShiftedTags(o, t.out, |d|);
        } else {
          assert d == [];
          assert WorkPayloads(out) == WorkPayloads(t.out) by {
            assert out[1..] == t.out;
          }
          ShiftedTags(o, t.out, |d|);
        }
      }
    }
  }

  /** A reply that is work exactly when chunks remain, followed by replies
      that are work exactly while the remaining n - 1 chunks last. */
  lemma {:induction false} ShiftedTags(o: ToWorker, out: seq<ToWorker>, n: nat)
    requires (o.tag == WorkAvailable <==> 0 < n)
    requires forall k :: 0 <= k < |out| ==> (out[k].tag == WorkAvailable <==> k < n - 1)
    ensures forall k :: 0 <= k < |[o] + out| ==> (([o] + out)[k].tag == WorkAvailable <==> k < n)
  {
    forall k | 0 <= k < |[o] + out|
      ensures ([o] + out)[k].tag == WorkAvailable <==> k < n
    {
      if k > 0 {
        assert ([o] + out)[k] == out[k - 1];
      }
    }
  }

  /** With a validated configuration and at most MaxProcessors ranks, the
      fill never exhausts the generator: the chunk length is chosen so that
      MaxChunk * MaxProcessors * granularity < points. */
  lemma {:induction false} FillNeverExhausts(fid: int, points: int, commSize: int)
    requires ValidateAdvanced(fid, points).Ok?
    requires 1 <= commSize <= MaxProcessors
    ensures var p := ValidateAdvanced(fid, points).value;
      MaxChunk * (commSize - 1) < NumChunks(Fresh(p.points, p.granularity))
  {
    var p := ValidateAdvanced(fid, points).value;
    var k := MaxChunk * (commSize - 1);
    MulMono(k, MaxChunk * MaxProcessors, p.granularity);
    CeilDivBound(points, p.granularity, k);
  }

  /** What the controller does in one run: the messages of the initial fill
      and the trace of the receive loop. */
  datatype Session = Session(fill: seq<ToWorker>, trace: Trace)

  /** The receive loop after the fill, as written (fixed == false) or
      corrected (fixed == true). As written, the work messages run one
      chunk behind the generator, starting with the chunk it handed out
      last; corrected, they are the remaining chunks in order. */
  method ReceiveLoop(s: Controller, msgs: seq<Report>, fixed: bool) returns (t: Trace)
    requires Valid(s) && AllFromWorkers(s.commSize, msgs)
    ensures |t.out| <= |msgs| && (!t.stopped ==> |t.out| == |msgs|)
    ensures t.stopped ==> t.final.exits == s.commSize - 1
    ensures !fixed ==> WorkPayloads(t.out) == ([Last(s.gen)] + Drain(s.gen))[..Min(|t.out|, |Drain(s.gen)|)]
    ensures fixed ==> WorkPayloads(t.out) == Drain(s.gen)[..Min(|t.out|, |Drain(s.gen)|)]
    ensures forall k :: 0 <= k < |t.out| ==> (t.out[k].tag == WorkAvailable <==> k < |Drain(s.gen)|)
    ensures !fixed && !IsLoopDone(s.gen) && t.out != [] ==>
      t.out[0] == ToWorker(msgs[0].source, WorkAvailable, Last(s.gen))
    ensures var k := |t.out| + (if t.stopped then 1 else 0);
      k <= |msgs| && t.final.exits == s.exits + ExitingCount(msgs[..k])
    ensures t.stopped <==> s.exits < s.commSize - 1 && t.final.exits == s.commSize - 1
    ensures s.exits < s.commSize - 1 ==> t.final.exits <= s.commSize - 1
    ensures forall k :: 0 <= k < |t.out| ==> t.out[k].dest == msgs[k].source
  {
    t := Run(s, msgs, fixed);
    RunControl(s, msgs, fixed, t);
    if fixed {
      RunFixedPayloads(s, msgs);
    } else {
      RunAsWrittenPayloads(s, msgs);
      if !IsLoopDone(s.gen) {
        FirstReplyAsWritten(s, msgs, t);
      }
    }
  }

  /** The controller's side of the advanced driver, as written: validation,
      the initial fill from a zeroed cursor, then the receive loop over the
      reports that arrive. An invalid configuration stops before anything is
      sent. Otherwise every slot gets a chunk in the fill, the first steady
      work message repeats the fill's last chunk, and no work message ever
      covers the last index points - 1. */
  method MasterWork(fid: int, points: int, commSize: int, msgs: seq<Report>) returns (r: Result<Session>)
    requires 1 <= commSize <= MaxProcessors && AllFromWorkers(commSize, msgs)
    ensures ValidateAdvanced(fid, points).Err? <==> r.Err?
    ensures r.Err? ==> r.error == ValidateAdvanced(fid, points).error
    ensures r.Ok? ==> |r.value.fill| == MaxChunk * (commSize - 1) && |r.value.trace.out| <= |msgs|
    ensures r.Ok? ==> EndsBefore(WorkPayloads(r.value.fill) + WorkPayloads(r.value.trace.out), points)
    ensures r.Ok? && commSize >= 2 && r.value.trace.out != [] ==>
      r.value.trace.out[0] == ToWorker(msgs[0].source, WorkAvailable, r.value.fill[|r.value.fill| - 1].payload)
  {
    var v := ValidateAdvanced(fid, points);
    if v.Err? {
      return Err(v.error);
    }
    var p := v.value;
    var c0 := Fresh(p.points, p.granularity);
    var s, fill := InitialFill(c0, commSize);
    FillNeverExhausts(fid, points, commSize);
    DrainLength(c0);
    var t := ReceiveLoop(s, msgs, false);
    AsWrittenEndsBefore(c0, Last(s.gen), Drain(s.gen), fill, t.out);
    if commSize >= 2 {
      assert fill[|fill| - 1].payload == Last(s.gen);
    }
    r := Ok(Session(fill, t));
  }

  /** Every chunk of cs ends before bound. */
  predicate EndsBefore(cs: seq<Chunk>, bound: int)
  {
    forall k :: 0 <= k < |cs| ==> cs[k].stop < bound
  }

  /** As written, the first report after the fill is answered with the
      chunk the cursor handed out last, while chunks remain. */
  lemma {:induction false} FirstReplyAsWritten(s: Controller, msgs: seq<Report>, t: Trace)
    requires Valid(s) && AllFromWorkers(s.commSize, msgs) && !IsLoopDone(s.gen)
    requires t == Run(s, msgs, false)
    ensures t.out != [] ==> t.out[0] == ToWorker(msgs[0].source, WorkAvailable, Last(s.gen))
  {
  }

  /** The fill's work messages followed by the as-written loop's never
      reach the domain's end, provided the fill stopped short of the last
      chunk. */
  lemma {:induction false} AsWrittenEndsBefore(c0: Cursor, last: Chunk, rest: seq<Chunk>, fill: seq<ToWorker>, out: seq<ToWorker>)
    requires Ready(c0) && |fill| < |Drain(c0)| && rest == Drain(c0)[|fill|..]
    requires forall k :: 0 <= k < |fill| ==> fill[k].tag == WorkAvailable && fill[k].payload == Drain(c0)[k]
    requires |fill| > 0 ==> last == Drain(c0)[|fill| - 1]
    requires |fill| == 0 ==> last.stop < c0.points
    requires WorkPayloads(out) == ([last] + rest)[..Min(|out|, |rest|)]
    ensures EndsBefore(WorkPayloads(fill) + WorkPayloads(out), c0.points)
  {
    DispatchedBeforeEnd(c0, |fill|, last, |out|);
    LaggedSession(Drain(c0), rest, fill, out, last);
  }

  /** Sequence-level step of AsWrittenEndsBefore: work messages carrying a
      prefix of d, followed by messages whose work payloads are the rest of
      d one message late, carry exactly the lagged sequence. */
  lemma {:induction false} LaggedSession(d: seq<Chunk>, rest: seq<Chunk>, fill: seq<ToWorker>, out: seq<ToWorker>, last: Chunk)
    requires |fill| <= |d| && rest == d[|fill|..]
    requires forall k :: 0 <= k < |fill| ==> fill[k].tag == WorkAvailable && fill[k].payload == d[k]
    requires WorkPayloads(out) == ([last] + rest)[..Min(|out|, |rest|)]
    ensures WorkPayloads(fill) + WorkPayloads(out) == d[..|fill|] + ([last] + d[|fill|..])[..Min(|out|, |d| - |fill|)]
  {
    WorkPayloadsAllWork(fill, d[..|fill|]);
  }

  /** Work messages carrying a prefix of d, followed by messages whose
      work payloads continue d, carry a prefix of d. */
  lemma {:induction false} SessionPrefix(d: seq<Chunk>, rest: seq<Chunk>, fill: seq<ToWorker>, out: seq<ToWorker>)
    requires |fill| <= |d| && rest == d[|fill|..]
    requires forall k :: 0 <= k < |fill| ==> fill[k].tag == WorkAvailable && fill[k].payload == d[k]
    requires WorkPayloads(out) == rest[..Min(|out|, |rest|)]
    ensures WorkPayloads(fill) + WorkPayloads(out) == d[..|fill| + Min(|out|, |d| - |fill|)]
  {
    WorkPayloadsAllWork(fill, d[..|fill|]);
    PrefixJoin(d, WorkPayloads(fill), WorkPayloads(out), |fill|, |out|);
  }

  /** When the fill stops short of the last chunk, neither the fill's
      chunks nor the as-written loop's, which lag one behind the generator,
      reach the domain's end. */
  lemma {:induction false} DispatchedBeforeEnd(c0: Cursor, f: nat, last: Chunk, m: nat)
    requires Ready(c0) && f < |Drain(c0)|
    requires f > 0 ==> last == Drain(c0)[f - 1]
    requires f == 0 ==> last.stop < c0.points
    ensures EndsBefore(Drain(c0)[..f] + ([last] + Drain(c0)[f..])[..Min(m, |Drain(c0)| - f)], c0.points)
  {
    var d := Drain(c0);
    forall j | 0 <= j < |d| - 1
      ensures d[j].stop < c0.points
    {
      EarlyChunkEndsBefore(c0, j);
    }
    LagEndsBefore(d, f, last, m, c0.points);
  }

  /** The sequence-level core of DispatchedBeforeEnd: if only the last chunk
      of d may reach bound, a prefix of d followed by a one-late copy of the
      rest stays below bound. */
  lemma {:induction false} LagEndsBefore(d: seq<Chunk>, f: nat, last: Chunk, m: nat, bound: int)
    requires f < |d|
    requires forall j :: 0 <= j < |d| - 1 ==> d[j].stop < bound
    requires f > 0 ==> last == d[f - 1]
    requires f == 0 ==> last.stop < bound
    ensures EndsBefore(d[..f] + ([last] + d[f..])[..Min(m, |d| - f)], bound)
  {
    var steady := ([last] + d[f..])[..Min(m, |d| - f)];
    assert EndsBefore(d[..f], bound) by {
      forall j | 0 <= j < f
        ensures d[..f][j].stop < bound
      {
        assert d[..f][j] == d[j];
      }
    }
    assert EndsBefore(steady, bound) by {
      forall k | 0 <= k < |steady|
        ensures steady[k].stop < bound
      {
        if k > 0 {
          assert steady[k] == d[f + k - 1];
        }
      }
    }
    EndsBeforeJoin(d[..f], steady, bound);
  }

  lemma {:induction false} EndsBeforeJoin(a: seq<Chunk>, b: seq<Chunk>, bound: int)
    requires EndsBefore(a, bound) && EndsBefore(b, bound)
    ensures EndsBefore(a + b, bound)
  {
    forall k | 0 <= k < |a + b|
      ensures (a + b)[k].stop < bound
    {
      if k >= |a| {
        assert (a + b)[k] == b[k - |a|];
      }
    }
  }

  /** Every chunk but the generator's last ends before the domain's end. */
  lemma {:induction false} EarlyChunkEndsBefore(c0: Cursor, j: int)
    requires Ready(c0) && 0 <= j < |Drain(c0)| - 1
    ensures Drain(c0)[j].stop < c0.points
  {
    DrainPartition(c0);
    assert Drain(c0)[j].stop == Drain(c0)[j + 1].start;
  }

  /** The controller's side with the corrected receive loop: every chunk of
      the domain is sent at most once and in generator order, and all of
      them once enough reports have been answered. */
  method MasterWorkFixed(fid: int, points: int, commSize: int, msgs: seq<Report>) returns (r: Result<Session>)
    requires 1 <= commSize <= MaxProcessors && AllFromWorkers(commSize, msgs)
    ensures ValidateAdvanced(fid, points).Err? <==> r.Err?
    ensures r.Err? ==> r.error == ValidateAdvanced(fid, points).error
    ensures r.Ok? ==> var p := ValidateAdvanced(fid, points).value;
      var d := Drain(Fresh(p.points, p.granularity));
      |r.value.fill| == MaxChunk * (commSize - 1) < |d|
    ensures r.Ok? ==> var p := ValidateAdvanced(fid, points).value;
      var d := Drain(Fresh(p.points, p.granularity));
      WorkPayloads(r.value.fill) + WorkPayloads(r.value.trace.out)
        == d[..|r.value.fill| + Min(|r.value.trace.out|, |d| - |r.value.fill|)]
  {
    var v := ValidateAdvanced(fid, points);
    if v.Err? {
      return Err(v.error);
    }
    var p := v.value;
    var c0 := Fresh(p.points, p.granularity);
    var s, fill := InitialFill(c0, commSize);
    FillNeverExhausts(fid, points, commSize);
    DrainLength(c0);
    var t := ReceiveLoop(s, msgs, true);
    SessionPrefix(Drain(c0), Drain(s.gen), fill, t.out);
    r := Ok(Session(fill, t));
    assert c0 == Fresh(ValidateAdvanced(fid, points).value.points, ValidateAdvanced(fid, points).value.granularity);
  }

  /** A prefix of d followed by a prefix of the rest is a prefix of d. */
  lemma {:induction false} PrefixJoin(d: seq<Chunk>, a: seq<Chunk>, b: seq<Chunk>, f: nat, m: nat)
    requires f <= |d| && a == d[..f] && b == d[f..][..Min(m, |d| - f)]
    ensures a + b == d[..f + Min(m, |d| - f)]
  {
  }

  /** The input that shows the repeated and the lost chunk: 1000 points
      (chunk length 10) and one worker (group size 2). The fill sends chunks
      0, 1 and 2, ending at [20, 30); the first report is answered, as
      written, with [20, 30) once more, where the corrected loop sends
      [30, 40). The generator's last chunk is [990, 1000). */
  lemma {:induction false} RepeatedChunkExample(s: Controller, v: real)
    requires Valid(s) && s.commSize == 2
    requires Last(s.gen) == Drain(Fresh(1000, 10))[2]
    requires Drain(s.gen) == Drain(Fresh(1000, 10))[3..]
    ensures |Drain(Fresh(1000, 10))| == 100
    ensures Drain(Fresh(1000, 10))[2] == Chunk(20, 30)
    ensures Drain(Fresh(1000, 10))[99] == Chunk(990, 1000)
    ensures ControllerStep(s, Report(1, ReqWork, v)).Reply?
    ensures ControllerStep(s, Report(1, ReqWork, v)).out == ToWorker(1, WorkAvailable, Chunk(20, 30))
    ensures ControllerStepFixed(s, Report(1, ReqWork, v)).out == ToWorker(1, WorkAvailable, Chunk(30, 40))
  {
    var c0 := Fresh(1000, 10);
    DrainLength(c0);
    DivUnique(1009, 10, 100, 9);
    DrainClosedForm(c0);
    assert Drain(c0)[3] == NthChunk(c0, 3);
    assert Drain(s.gen)[0] == Drain(c0)[3];
  }

  /** A worker's state between messages: the quit signals seen so far. */
  datatype WorkerResult =
    | Continue(quits: int, reply: seq<Report>)
    | Leave(quits: int, farewell: Report)

  /** The number of quits after which a worker leaves: one per slot. */
  const QuitsToLeave := MaxChunk

  /** One pass of the worker's receive loop. A work message is answered with
      the partial sum over its range; a quit bumps the counter and, at the
      third, the worker sends a zero-valued Exiting report and leaves; any
      other tag is ignored. */
  function WorkerStep(w: int -> real, rank: int, quits: int, m: ToWorker): (r: WorkerResult)
    ensures m.tag == WorkAvailable ==>
      r == Continue(quits, [Report(rank, ReqWork, Contribution(w, m.payload.start, m.payload.stop))])
    ensures r.Leave? <==> m.tag == Quit && quits + 1 >= QuitsToLeave
    ensures r.Leave? ==> r.quits == quits + 1 && r.farewell == Report(rank, Exiting, 0.0)
    ensures m.tag == Quit && r.Continue? ==> r.quits == quits + 1 && r.reply == []
    ensures m.tag != WorkAvailable && m.tag != Quit ==> r == Continue(quits, [])
  {
    match m.tag
    case WorkAvailable =>
      Continue(quits, [Report(rank, ReqWork, Contribution(w, m.payload.start, m.payload.stop))])
    case Quit =>
      if quits + 1 >= QuitsToLeave then Leave(quits + 1, Report(rank, Exiting, 0.0))
      else Continue(quits + 1, [])
    case _ => Continue(quits, [])
  }

  /** Number of messages with the given tag. */
  function CountTag(ms: seq<ToWorker>, tag: Tag): (n: nat)
    ensures n <= |ms|
  {
    if ms == [] then 0 else (if ms[0].tag == tag then 1 else 0) + CountTag(ms[1..], tag)
  }

  lemma {:induction false} CountTagAppend(a: seq<ToWorker>, b: seq<ToWorker>, tag: Tag)
    ensures CountTag(a + b, tag) == CountTag(a, tag) + CountTag(b, tag)
  {
    if a != [] {
      assert (a + b)[1..] == a[1..] + b;
      CountTagAppend(a[1..], b, tag);
    } else {
      assert a + b == b;
    }
  }

  /** What a worker does with a sequence of incoming messages: the reports
      it sends, how many messages it consumed and whether it left. */
  datatype WorkerTrace = WorkerTrace(sent: seq<Report>, consumed: nat, left: bool)

  function WorkerRun(w: int -> real, rank: int, quits: int, ms: seq<ToWorker>): (t: WorkerTrace)
    ensures t.consumed <= |ms|
    decreases |ms|
  {
    if ms == [] then WorkerTrace([], 0, false)
    else match WorkerStep(w, rank, quits, ms[0])
      case Leave(q, farewell) => WorkerTrace([farewell], 1, true)
      case Continue(q, reply) =>
        var t := WorkerRun(w, rank, q, ms[1..]);
        WorkerTrace(reply + t.sent, 1 + t.consumed, t.left)
  }

  /** A worker that has seen `quits` < 3 quits leaves exactly at the message
      that brings its count to three, having answered every work message
      before it with exactly one report, and ends with an Exiting report. */
  lemma {:induction false} WorkerLeavesAtThirdQuit(w: int -> real, rank: int, quits: int, ms: seq<ToWorker>)
    requires 0 <= quits < QuitsToLeave
    ensures var t := WorkerRun(w, rank, quits, ms);
      t.left <==> quits + CountTag(ms, Quit) >= QuitsToLeave
    ensures var t := WorkerRun(w, rank, quits, ms);
      t.left ==> quits + CountTag(ms[..t.consumed], Quit) == QuitsToLeave && ms[t.consumed - 1].tag == Quit
    ensures var t := WorkerRun(w, rank, quits, ms);
      !t.left ==> t.consumed == |ms|
    ensures var t := WorkerRun(w, rank, quits, ms);
      |t.sent| == CountTag(ms[..t.consumed], WorkAvailable) + (if t.left then 1 else 0)
    ensures var t := WorkerRun(w, rank, quits, ms);
      t.left ==> t.sent[|t.sent| - 1] == Report(rank, Exiting, 0.0)
    decreases |ms|
  {
    if ms != [] {
      var t := WorkerRun(w, rank, quits, ms);
      assert ms == [ms[0]] + ms[1..];
      CountTagAppend([ms[0]], ms[1..], Quit);
      match WorkerStep(w, rank, quits, ms[0])
      case Leave(q, farewell) =>
        assert ms[..1] == [ms[0]];
      case Continue(q, reply) =>
        WorkerLeavesAtThirdQuit(w, rank, q, ms[1..]);
        var t' := WorkerRun(w, rank, q, ms[1..]);
        assert ms[..t.consumed] == [ms[0]] + ms[1..][..t'.consumed];
        CountTagAppend([ms[0]], ms[1..][..t'.consumed], Quit);
        CountTagAppend([ms[0]], ms[1..][..t'.consumed], WorkAvailable);
        if t'.left {
          assert t.sent[|t.sent| - 1] == t'.sent[|t'.sent| - 1];
        }
    }
  }
}

=== FILE: config.dfy ===
/** Start-up validation done by the three drivers' `main` before any
    scheduling: integrand selection by numeric id and, in the advanced driver,
    the minimum point count and the chunk length chosen from it. Command-line
    parsing is outside the model: the inputs are already-parsed integers. */
module Config {

  /** The four integrands of the external function library. */
  datatype Integrand = F1 | F2 | F3 | F4

  datatype ConfigError = TooFewPoints | InvalidFunction

  datatype Result<T> = Ok(value: T) | Err(error: ConfigError)

  /** What the scheduling code reads from the validated configuration. */
  datatype Problem = Problem(f: Integrand, points: int, granularity: int)

  /** Rank bound of the advanced driver's fixed-size tables. */
  const MaxProcessors := 32
  /** Chunks a worker may hold at once in the advanced driver. */
  const MaxChunk := 3
  /** Smallest point count the advanced driver accepts. */
  const MinPoints := 1000
  /** Chunk length of the dynamic driver. */
  const DynamicGranularity := 100

  /** The numeric id under which each integrand is selected. */
  function IntegrandId(f: Integrand): int
  {
    match f
    case F1 => 1
    case F2 => 2
    case F3 => 3
    case F4 => 4
  }

  /** The `switch (FunctionID)` shared by all three drivers. */
  function SelectIntegrand(fid: int): (r: Result<Integrand>)
    ensures r.Ok? <==> 1 <= fid <= 4
    ensures r.Ok? ==> IntegrandId(r.value) == fid
    ensures r.Err? ==> r.error == InvalidFunction
  {
    if fid == 1 then Ok(F1)
    else if fid == 2 then Ok(F2)
    else if fid == 3 then Ok(F3)
    else if fid == 4 then Ok(F4)
    else Err(InvalidFunction)
  }

  /** Selecting by an integrand's own id gives that integrand back. */
  lemma {:induction false} SelectIdRoundTrip(f: Integrand)
    ensures SelectIntegrand(IntegrandId(f)) == Ok(f)
  {
  }

  /** The advanced driver's checks, in source order: too few points first,
      then the function id; the chunk length is 10 below 10000 points and 100
      from there on. */
  function ValidateAdvanced(fid: int, points: int): (r: Result<Problem>)
    ensures points < MinPoints <==> r == Err(TooFewPoints)
    ensures r == Err(InvalidFunction) <==> points >= MinPoints && !(1 <= fid <= 4)
    ensures r.Ok? ==> r.value.points == points && IntegrandId(r.value.f) == fid
    ensures r.Ok? ==> (r.value.granularity == 10 <==> points < 10000)
    ensures r.Ok? ==> r.value.granularity in {10, 100}
    ensures r.Ok? ==> MaxChunk * MaxProcessors * r.value.granularity < points
  {
    if points < MinPoints then Err(TooFewPoints)
    else
      var granularity := if points < 10000 then 10 else 100;
      match SelectIntegrand(fid)
      case Err(e) => Err(e)
      case Ok(f) => Ok(Problem(f, points, granularity))
  }

  /** The dynamic driver checks only the function id; its chunk length is
      fixed at 100 and no lower bound is placed on the point count. */
  function ValidateDynamic(fid: int, points: int): (r: Result<Problem>)
    ensures r.Ok? <==> 1 <= fid <= 4
    ensures r.Err? ==> r.error == InvalidFunction
    ensures r.Ok? ==> r.value.points == points && IntegrandId(r.value.f) == fid
    ensures r.Ok? ==> r.value.granularity == DynamicGranularity
  {
    match SelectIntegrand(fid)
    case Err(e) => Err(e)
    case Ok(f) => Ok(Problem(f, points, DynamicGranularity))
  }
}

=== FILE: dynamic.dfy ===
/** The dynamic driver (dynamic_sched.cpp): every worker opens with a
    zero-valued request; the controller answers each report with exactly one
    message, a freshly generated chunk of length 100 or, once the generator is
    exhausted, a quit. It counts the quits it sends and stops once it has sent
    one to every worker; a worker leaves at its first quit. */
module Dynamic {
  import opened Generator
  import opened Config
  import opened Messages
  import opened Quadrature

  /** The controller's state: cursor, quits sent, group size, running sum. */
  datatype Controller = Controller(gen: Cursor, quits: int, commSize: int, total: real)

  /** The controller's answer to one report and whether it then stops. */
  datatype Step = Step(next: Controller, out: ToWorker, stop: bool)

  /** One pass of the controller's receive loop. The index pair is written
      after GetNextLoop, so a work message carries the chunk just generated.
      A quit carries whatever pair was sent last; the worker ignores it. */
  function ControllerStep(s: Controller, m: Report): (r: Step)
    ensures r.out.dest == m.source
    ensures r.next.commSize == s.commSize && r.next.total == s.total + m.value
    ensures r.out.tag == WorkAvailable <==> !IsLoopDone(s.gen)
    ensures r.out.tag == Quit <==> IsLoopDone(s.gen)
    ensures !IsLoopDone(s.gen) ==>
      r.next.gen == GetNextLoop(s.gen) && r.out.payload == Last(r.next.gen) && r.next.quits == s.quits
    ensures IsLoopDone(s.gen) ==> r.next.gen == s.gen && r.next.quits == s.quits + 1
    ensures r.stop <==> r.next.quits == s.commSize - 1
  {
    var total := s.total + m.value;
    if !IsLoopDone(s.gen) then
      var gen := GetNextLoop(s.gen);
      Step(s.(gen := gen, total := total), ToWorker(m.source, WorkAvailable, Last(gen)), s.quits == s.commSize - 1)
    else
      var quits := s.quits + 1;
      Step(s.(quits := quits, total := total), ToWorker(m.source, Quit, Last(s.gen)), quits == s.commSize - 1)
  }

  /** What the receive loop sends while it consumes a sequence of reports,
      the state it ends in and whether it stopped. */
  datatype Trace = Trace(out: seq<ToWorker>, final: Controller, stopped: bool)

  function Run(s: Controller, msgs: seq<Report>): (t: Trace)
    ensures |t.out| <= |msgs| && t.final.commSize == s.commSize
    ensures !t.stopped ==> |t.out| == |msgs|
    decreases |msgs|
  {
    if msgs == [] then Trace([], s, false)
    else
      var step := ControllerStep(s, msgs[0]);
      if step.stop then Trace([step.out], step.next, true)
      else
        var t := Run(step.next, msgs[1..]);
        Trace([step.out] + t.out, t.final, t.stopped)
  }

  /** Over any sequence of reports, the work messages carry the generator's
      chunks in order, each once; the replies are work exactly while chunks
      remain and quits after that, and each quit bumps the count by one. */
  lemma {:induction false} RunReplies(s: Controller, msgs: seq<Report>)
    requires Ready(s.gen)
    ensures var t := Run(s, msgs); var d := Drain(s.gen);
      WorkPayloads(t.out) == d[..Min(|t.out|, |d|)]
    ensures var t := Run(s, msgs); var d := Drain(s.gen);
      forall k :: 0 <= k < |t.out| ==> (t.out[k].tag == WorkAvailable <==> k < |d|) && t.out[k].dest == msgs[k].source
    ensures var t := Run(s, msgs); var d := Drain(s.gen);
      t.final.quits == s.quits + (|t.out| - Min(|t.out|, |d|))
  {
    RunPayloads(s, msgs);
    RunTags(s, msgs);
    RunQuits(s, msgs);
  }

  /** The work messages of a run carry the generator's chunks in order. */
  lemma {:induction false} RunPayloads(s: Controller, msgs: seq<Report>)
    requires Ready(s.gen)
    ensures var t := Run(s, msgs); var d := Drain(s.gen);
      WorkPayloads(t.out) == d[..Min(|t.out|, |d|)]
    decreases |msgs|
  {
    if msgs != [] {
      var d := Drain(s.gen);
      var step := ControllerStep(s, msgs[0]);
      var t := Run(s, msgs);
      if !step.stop {
        RunPayloads(step.next, msgs[1..]);
        var t' := Run(step.next, msgs[1..]);
        assert t.out[1..] == t'.out;
        if !IsLoopDone(s.gen) {
          DrainStep(s.gen);
          assert Drain(step.next.gen) == d[1..];
          assert WorkPayloads(t.out) == [d[0]] + WorkPayloads(t'.out);
          assert d == [d[0]] + d[1..];
          ConsPrefix(d[0], d[1..], Min(|t'.out|, |d| - 1));
        } else {
          assert d == [];
        }
      } else if !IsLoopDone(s.gen) {
        DrainStep(s.gen);
      }
    }
  }

  /** Every reply goes to the sender of its report, and replies are work
      exactly while the generator has chunks left. */
  lemma {:induction false} RunTags(s: Controller, msgs: seq<Report>)
    requires Ready(s.gen)
    ensures var t := Run(s, msgs); var d := Drain(s.gen);
      forall k :: 0 <= k < |t.out| ==> (t.out[k].tag == WorkAvailable <==> k < |d|) && t.out[k].dest == msgs[k].source
    decreases |msgs|
  {
    if msgs != [] {
      var d := Drain(s.gen);
      var step := ControllerStep(s, msgs[0]);
      var t := Run(s, msgs);
      if !IsLoopDone(s.gen) {
        DrainStep(s.gen);
      } else {
        assert d == [];
      }
      if !step.stop {
        RunTags(step.next, msgs[1..]);
        var t' := Run(step.next, msgs[1..]);
        forall k | 1 <= k < |t.out|
          ensures (t.out[k].tag == WorkAvailable <==> k < |d|) && t.out[k].dest == msgs[k].source
        {
          assert t.out[k] == t'.out[k - 1];
          assert msgs[k] == msgs[1..][k - 1];
        }
      }
    }
  }

  /** Each quit of a run bumps the quit count by one, and only quits do. */
  lemma {:induction false} RunQuits(s: Controller, msgs: seq<Report>)
    requires Ready(s.gen)
    ensures var t := Run(s, msgs); var d := Drain(s.gen);
      t.final.quits == s.quits + (|t.out| - Min(|t.out|, |d|))
    decreases |msgs|
  {
    if msgs != [] {
      var d := Drain(s.gen);
      var step := ControllerStep(s, msgs[0]);
      if !IsLoopDone(s.gen) {
        DrainStep(s.gen);
      } else {
        assert d == [];
      }
      if !step.stop {
        RunQuits(step.next, msgs[1..]);
      }
    }
  }

  /** Counting up from below, the loop stops exactly when the quit count
      reaches commSize - 1, and the count never passes it. */
  lemma {:induction false} RunStops(s: Controller, msgs: seq<Report>)
    requires s.quits < s.commSize - 1
    ensures var t := Run(s, msgs);
      (t.stopped <==> t.final.quits == s.commSize - 1) && t.final.quits <= s.commSize - 1
    decreases |msgs|
  {
    if msgs != [] {
      var step := ControllerStep(s, msgs[0]);
      if !step.stop {
        RunStops(step.next, msgs[1..]);
      }
    }
  }

  /** The controller's side of the dynamic driver: validation, then the
      receive loop from a zeroed cursor with chunk length 100. An invalid
      function id stops before anything is sent. Otherwise the work messages
      are the first ceil(points / 100) chunks in order, each once, no quit
      precedes a work message, and the loop stops exactly when it has sent
      commSize - 1 quits. */
  method MasterWork(fid: int, points: int, commSize: int, msgs: seq<Report>) returns (r: Result<Trace>)
    ensures r.Err? <==> !(1 <= fid <= 4)
    ensures r.Err? ==> r.error == InvalidFunction
    ensures r.Ok? && points >= 0 ==> var d := Drain(Fresh(points, DynamicGranularity));
      |d| == (points + DynamicGranularity - 1) / DynamicGranularity &&
      WorkPayloads(r.value.out) == d[..Min(|r.value.out|, |d|)]
    ensures r.Ok? && points >= 0 ==> forall k :: 0 <= k < |r.value.out| ==>
      (r.value.out[k].tag == WorkAvailable <==> k < (points + DynamicGranularity - 1) / DynamicGranularity)
    ensures r.Ok? && commSize >= 2 ==> (r.value.stopped <==> r.value.final.quits == commSize - 1)
    ensures r.Ok? && points >= 0 ==> r.value.final.quits == |r.value.out| - Min(|r.value.out|, (points + DynamicGranularity - 1) / DynamicGranularity)
  {
    var v := ValidateDynamic(fid, points);
    if v.Err? {
      return Err(v.error);
    }
    var c0 := Fresh(points, v.value.granularity);
    var s := Controller(c0, 0, commSize, 0.0);
    if points >= 0 {
      DrainLength(c0);
      RunReplies(s, msgs);
    }
    if commSize >= 2 {
      RunStops(s, msgs);
    }
    r := Ok(Run(s, msgs));
  }

  /** What a worker does with one message: a work message yields the partial
      sum over its range, sent at the top of the next pass; a quit ends the
      loop; any other tag loops round and sends zero. */
  datatype WorkerResult = Send(value: real) | Leave

  function WorkerStep(w: int -> real, m: ToWorker): (r: WorkerResult)
    ensures r.Leave? <==> m.tag == Quit
    ensures m.tag == WorkAvailable ==> r == Send(Contribution(w, m.payload.start, m.payload.stop))
  {
    match m.tag
    case WorkAvailable => Send(Contribution(w, m.payload.start, m.payload.stop))
    case Quit => Leave
    case _ => Send(0.0)
  }

  /** The reports a worker sends while consuming a sequence of messages,
      how many it consumed and whether it left. */
  datatype WorkerTrace = WorkerTrace(sent: seq<Report>, consumed: nat, left: bool)

  /** The worker's loop after its opening request. */
  function WorkerLoop(w: int -> real, rank: int, ms: seq<ToWorker>): (t: WorkerTrace)
    ensures t.consumed <= |ms|
    decreases |ms|
  {
    if ms == [] then WorkerTrace([], 0, false)
    else match WorkerStep(w, ms[0])
      case Leave => WorkerTrace([], 1, true)
      case Send(v) =>
        var t := WorkerLoop(w, rank, ms[1..]);
        WorkerTrace([Report(rank, ReqWork, v)] + t.sent, 1 + t.consumed, t.left)
  }

  /** The whole worker: a zero-valued request, then the loop. */
  function Worker(w: int -> real, rank: int, ms: seq<ToWorker>): WorkerTrace
  {
    var t := WorkerLoop(w, rank, ms);
    WorkerTrace([Report(rank, ReqWork, 0.0)] + t.sent, t.consumed, t.left)
  }

  /** A worker leaves exactly at the first quit, so it consumes at most one;
      it sends one report up front and one per message it consumed before
      leaving, each work message answered with the partial sum over its
      range. */
  lemma {:induction false} WorkerLeavesAtFirstQuit(w: int -> real, rank: int, ms: seq<ToWorker>)
    ensures var t := Worker(w, rank, ms);
      t.left <==> exists k :: 0 <= k < |ms| && ms[k].tag == Quit
    ensures var t := Worker(w, rank, ms);
      t.left ==> ms[t.consumed - 1].tag == Quit
    ensures var t := Worker(w, rank, ms);
      forall k :: 0 <= k < t.consumed - (if t.left then 1 else 0) ==> ms[k].tag != Quit
    ensures var t := Worker(w, rank, ms);
      !t.left ==> t.consumed == |ms|
    ensures var t := Worker(w, rank, ms);
      |t.sent| == 1 + t.consumed - (if t.left then 1 else 0)
    ensures var t := Worker(w, rank, ms);
      forall k :: 0 <= k < t.consumed && ms[k].tag == WorkAvailable ==>
        t.sent[k + 1] == Report(rank, ReqWork, Contribution(w, ms[k].payload.start, ms[k].payload.stop))
    decreases |ms|
  {
    if ms != [] {
      if ms[0].tag != Quit {
        WorkerLeavesAtFirstQuit(w, rank, ms[1..]);
        var t := WorkerLoop(w, rank, ms);
        var t' := WorkerLoop(w, rank, ms[1..]);
        assert t.sent == [Report(rank, ReqWork, WorkerStep(w, ms[0]).value)] + t'.sent;
        forall k | 0 <= k < t.consumed && ms[k].tag == WorkAvailable
          ensures Worker(w, rank, ms).sent[k + 1] ==
            Report(rank, ReqWork, Contribution(w, ms[k].payload.start, ms[k].payload.stop))
        {
          if k > 0 {
            assert ms[k] == ms[1..][k - 1];
            assert Worker(w, rank, ms).sent[k + 1] == Worker(w, rank, ms[1..]).sent[k];
          }
        }
        if exists k :: 0 <= k < |ms| && ms[k].tag == Quit {
          var k :| 0 <= k < |ms| && ms[k].tag == Quit;
          assert ms[1..][k - 1].tag == Quit;
        }
        forall k | 0 <= k < t.consumed - (if t.left then 1 else 0)
          ensures ms[k].tag != Quit
        {
          if k > 0 {
            assert ms[k] == ms[1..][k - 1];
          }
        }
      }
    }
  }
}

=== FILE: generator.dfy ===
/** The work generator shared by the advanced and the dynamic scheduler.

    A cursor `completed` walks over the index domain [0, points). Each call of
    GetNextLoop hands out the half-open chunk [completed, min(completed +
    granularity, points)) and moves the cursor to the chunk's end; IsLoopDone
    guards the calls. The cursor record mirrors the index fields of the
    sources' ThreadData: the chunk handed out last (start, stop), the cursor,
    the domain size and the chunk length. */
module Generator {

  /** A half-open index range [start, stop). */
  datatype Chunk = Chunk(start: int, stop: int)

  datatype Cursor = Cursor(start: int, stop: int, completed: int, points: int, granularity: int)

  function Min(a: int, b: int): int
  {
    if a <= b then a else b
  }

  /** The cursor as both drivers' `main` sets it up: every index field zero. */
  function Fresh(points: int, granularity: int): Cursor
  {
    Cursor(0, 0, 0, points, granularity)
  }

  /** The chunk the cursor handed out last. */
  function Last(c: Cursor): Chunk
  {
    Chunk(c.start, c.stop)
  }

  /** The domain on which chunk sequences are defined: a positive chunk
      length and a cursor that has not overshot the domain. */
  predicate Ready(c: Cursor)
  {
    c.granularity >= 1 && c.completed <= c.points
  }

  /** True exactly when every index has been handed out. */
  predicate IsLoopDone(c: Cursor)
  {
    c.completed == c.points
  }

  /** Hands out the next chunk. The clip uses `>=`, so a chunk that would end
      exactly at the domain's end is clipped to the same value. */
  function GetNextLoop(c: Cursor): (r: Cursor)
    ensures r.points == c.points && r.granularity == c.granularity
    ensures r.start == c.completed && r.completed == r.stop
    ensures c.completed <= c.points ==> r.stop <= c.points
    ensures r.stop == c.points || r.stop - r.start == c.granularity
    ensures c.completed + c.granularity < c.points ==> r.stop == c.completed + c.granularity
    ensures Ready(c) && !IsLoopDone(c) ==> c.completed < r.completed
    ensures Ready(c) && IsLoopDone(c) ==> r.start == r.stop == c.completed && IsLoopDone(r)
  {
    var stop := c.completed + c.granularity;
    var clipped := if stop >= c.points then c.points else stop;
    Cursor(c.completed, clipped, clipped, c.points, c.granularity)
  }

  /** The number of chunks left: the ceiling of the remaining length over the
      chunk length. */
  function NumChunks(c: Cursor): nat
    requires Ready(c)
  {
    (c.points - c.completed + c.granularity - 1) / c.granularity
  }

  /** Closed form of the k-th chunk handed out from cursor c. */
  function NthChunk(c: Cursor, k: nat): Chunk
  {
    Chunk(c.completed + k * c.granularity, Min(c.completed + (k + 1) * c.granularity, c.points))
  }

  /** The chunks handed out by `while (!IsLoopDone) GetNextLoop`, in order. */
  function Drain(c: Cursor): seq<Chunk>
    requires Ready(c)
    decreases c.points - c.completed
  {
    if IsLoopDone(c) then []
    else
      var n := GetNextLoop(c);
      [Last(n)] + Drain(n)
  }

  /** Drain from a cursor that has not finished peels one chunk off the front. */
  lemma {:induction false} DrainStep(c: Cursor)
    requires Ready(c) && !IsLoopDone(c)
    ensures Ready(GetNextLoop(c))
    ensures Drain(c) == [Last(GetNextLoop(c))] + Drain(GetNextLoop(c))
  {
  }

  /** Putting x in front of a prefix of d is a prefix of [x] + d. */
  lemma {:induction false} ConsPrefix(x: Chunk, d: seq<Chunk>, m: nat)
    requires m <= |d|
    ensures [x] + d[..m] == ([x] + d)[..m + 1]
  {
  }

  /** Cursor `gen` is the one reached from c0 after handing out `count`
      chunks: it still owes the rest of c0's chunk sequence. */
  ghost predicate CursorAt(c0: Cursor, gen: Cursor, count: int)
  {
    && Ready(c0) && Ready(gen)
    && gen.stop == gen.completed
    && 0 <= count <= |Drain(c0)|
    && Drain(gen) == Drain(c0)[count..]
    && (count > 0 ==> Last(gen) == Drain(c0)[count - 1])
    && (count == 0 ==> gen == c0)
  }

  /** Handing out one more chunk advances the count by one; the cursor is
      done exactly when the whole sequence has been handed out. */
  lemma {:induction false} CursorAdvance(c0: Cursor, gen: Cursor, count: int)
    requires CursorAt(c0, gen, count)
    ensures IsLoopDone(gen) <==> count == |Drain(c0)|
    ensures !IsLoopDone(gen) ==> CursorAt(c0, GetNextLoop(gen), count + 1)
    ensures !IsLoopDone(gen) ==> Last(GetNextLoop(gen)) == Drain(c0)[count]
  {
    if !IsLoopDone(gen) {
      DrainStep(gen);
      assert Drain(c0)[count..][0] == Drain(c0)[count];
      assert Drain(c0)[count..][1..] == Drain(c0)[count + 1..];
    } else {
      assert Drain(gen) == [];
    }
  }

  /** k < ceil(d / g) exactly when k * g < d. */
  lemma {:induction false} CeilDivBound(d: int, g: int, k: nat)
    requires d >= 0 && g >= 1
    ensures k < (d + g - 1) / g <==> k * g < d
  {
    var q := (d + g - 1) / g;
    var r := (d + g - 1) % g;
    assert d + g - 1 == q * g + r && 0 <= r < g;
    if k < q {
      MulMono(k + 1, q, g);
      assert (k + 1) * g == k * g + g;
    } else {
      MulMono(q, k, g);
      assert (q + 1) * g == q * g + g;
    }
  }

  lemma {:induction false} MulMono(a: int, b: int, g: int)
    requires a <= b && g >= 0
    ensures a * g <= b * g
  {
    assert b * g - a * g == (b - a) * g;
  }

  /** Division by a positive divisor is determined by quotient and remainder. */
  lemma {:induction false} DivUnique(a: int, g: int, q: int, r: int)
    requires g >= 1 && 0 <= r < g && a == q * g + r
    ensures a / g == q
  {
    var q' := a / g;
    if q' < q {
      MulMono(q' + 1, q, g);
    } else if q < q' {
      MulMono(q + 1, q', g);
    }
  }

  /** The number of chunks drained is ceil(remaining / granularity). */
  lemma {:induction false} DrainLength(c: Cursor)
    requires Ready(c)
    ensures |Drain(c)| == NumChunks(c)
    decreases c.points - c.completed
  {
    var d := c.points - c.completed;
    var g := c.granularity;
    if IsLoopDone(c) {
      DivUnique(g - 1, g, 0, g - 1);
    } else {
      var n := GetNextLoop(c);
      DrainLength(n);
      if c.completed + g >= c.points {
        DivUnique(g - 1, g, 0, g - 1);
        DivUnique(d + g - 1, g, 1, d - 1);
      } else {
        var e := n.points - n.completed;
        assert e == d - g;
        var q := (e + g - 1) / g;
        assert e + g - 1 == q * g + (e + g - 1) % g;
        DivUnique(d + g - 1, g, q + 1, (e + g - 1) % g);
      }
    }
  }

  /** Every drained chunk has the closed form NthChunk. */
  lemma {:induction false} DrainClosedForm(c: Cursor)
    requires Ready(c)
    ensures forall k :: 0 <= k < |Drain(c)| ==> Drain(c)[k] == NthChunk(c, k)
    decreases c.points - c.completed
  {
    if !IsLoopDone(c) {
      var n := GetNextLoop(c);
      var g := c.granularity;
      DrainClosedForm(n);
      forall k | 0 <= k < |Drain(c)|
        ensures Drain(c)[k] == NthChunk(c, k)
      {
        if k > 0 {
          assert Drain(c)[k] == Drain(n)[k - 1] == NthChunk(n, k - 1);
          assert n.completed == c.completed + g;
          assert (k - 1) * g + g == k * g;
          assert k * g + g == (k + 1) * g;
        }
      }
    }
  }

  /** Drained chunks are consecutive and non-empty, start at the cursor, end
      at the domain's end, and all have the full chunk length but the last. */
  lemma {:induction false} DrainPartition(c: Cursor)
    requires Ready(c)
    ensures Drain(c) == [] <==> IsLoopDone(c)
    ensures Drain(c) != [] ==> Drain(c)[0].start == c.completed
    ensures Drain(c) != [] ==> Drain(c)[|Drain(c)| - 1].stop == c.points
    ensures forall k :: 0 <= k < |Drain(c)| ==> c.completed <= Drain(c)[k].start < Drain(c)[k].stop <= c.points
    ensures forall k :: 0 <= k < |Drain(c)| - 1 ==> Drain(c)[k].stop == Drain(c)[k + 1].start
    ensures forall k :: 0 <= k < |Drain(c)| - 1 ==> Drain(c)[k].stop - Drain(c)[k].start == c.granularity
    decreases c.points - c.completed
  {
    if !IsLoopDone(c) {
      var n := GetNextLoop(c);
      DrainPartition(n);
    }
  }

  /** Chunk j lies wholly before chunk k whenever j < k: drained chunks are
      pairwise disjoint. */
  lemma {:induction false} DrainDisjoint(c: Cursor)
    requires Ready(c)
    ensures forall j, k :: 0 <= j < k < |Drain(c)| ==> Drain(c)[j].stop <= Drain(c)[k].start
    decreases c.points - c.completed
  {
    if !IsLoopDone(c) {
      var n := GetNextLoop(c);
      DrainDisjoint(n);
      DrainPartition(n);
      forall j, k | 0 <= j < k < |Drain(c)|
        ensures Drain(c)[j].stop <= Drain(c)[k].start
      {
        if j == 0 && k > 1 {
          assert Drain(c)[1].start <= Drain(c)[1].stop <= Drain(c)[k].start;
        }
      }
    }
  }

  /** An index lies in some drained chunk exactly when it lies in
      [completed, points). */
  lemma {:induction false} DrainCovers(c: Cursor, x: int)
    requires Ready(c)
    ensures c.completed <= x < c.points <==>
      exists k :: 0 <= k < |Drain(c)| && Drain(c)[k].start <= x < Drain(c)[k].stop
    decreases c.points - c.completed
  {
    if !IsLoopDone(c) {
      var n := GetNextLoop(c);
      DrainCovers(n, x);
      var d := Drain(c);
      if c.completed <= x < c.points {
        if x < n.stop {
          assert d[0].start <= x < d[0].stop;
        } else {
          var k :| 0 <= k < |Drain(n)| && Drain(n)[k].start <= x < Drain(n)[k].stop;
          assert d[k + 1] == Drain(n)[k];
        }
      } else {
        DrainPartition(n);
        forall k | 0 <= k < |d|
          ensures !(d[k].start <= x < d[k].stop)
        {
          if k > 0 {
            assert d[k] == Drain(n)[k - 1];
          }
        }
      }
    }
  }
}

=== FILE: messages.dfy ===
/** Messages exchanged between the controller (rank 0) and the workers, as
    plain values: the transport that carries them is outside the model. */
module Messages {
  import opened Generator

  /** Application-level message tags. The advanced driver numbers them 1000,
      2000, 3000 and 4000, the dynamic driver 1, 2 and 3 and has no Exiting. */
  datatype Tag = WorkAvailable | Quit | ReqWork | Exiting

  /** Controller to worker: a tag and the index pair it carries (ignored by
      the worker on a quit). */
  datatype ToWorker = ToWorker(dest: int, tag: Tag, payload: Chunk)

  /** Worker to controller: a tag and one value, a partial sum or zero. */
  datatype Report = Report(source: int, tag: Tag, value: real)

  /** The chunks carried by the work messages of a sequence, in order. */
  function WorkPayloads(out: seq<ToWorker>): (r: seq<Chunk>)
    ensures |r| <= |out|
  {
    if out == [] then []
    else if out[0].tag == WorkAvailable then [out[0].payload] + WorkPayloads(out[1..])
    else WorkPayloads(out[1..])
  }

  /** A sequence of work messages carries its payloads, in order. */
  lemma {:induction false} WorkPayloadsAllWork(out: seq<ToWorker>, cs: seq<Chunk>)
    requires |out| == |cs|
    requires forall k :: 0 <= k < |out| ==> out[k].tag == WorkAvailable && out[k].payload == cs[k]
    ensures WorkPayloads(out) == cs
  {
    if out != [] {
      WorkPayloadsAllWork(out[1..], cs[1..]);
    }
  }
}

=== FILE: quadrature.dfy ===
/** The workers' midpoint-rule loop, with the floating-point arithmetic
    abstracted away. `w(i)` stands for the weighted sample of index i, that
    is f(LowerBound + (i + 0.5) * y, Intensity) * y; sums are exact, so the
    order in which partial sums are added does not matter. */
module Quadrature {
  import opened Generator

  /** Sum of w(i) over start <= i < stop; zero for an empty range. */
  function Contribution(w: int -> real, start: int, stop: int): real
    decreases stop - start
  {
    if stop <= start then 0.0 else Contribution(w, start, stop - 1) + w(stop - 1)
  }

  /** Splitting a range at an inner point splits its contribution. */
  lemma {:induction false} ContributionSplit(w: int -> real, a: int, b: int, c: int)
    requires a <= b <= c
    ensures Contribution(w, a, b) + Contribution(w, b, c) == Contribution(w, a, c)
    decreases c - b
  {
    if b < c {
      ContributionSplit(w, a, b, c - 1);
    }
  }

  /** The worker's loop `for (i = Start; i < Stop; i++) sum += w(i)`, which
      counts upward from start. */
  method PartialSum(w: int -> real, start: int, stop: int) returns (sum: real)
    ensures sum == Contribution(w, start, stop)
  {
    sum := 0.0;
    var i := start;
    while i < stop
      invariant start <= stop ==> start <= i <= stop
      invariant sum == Contribution(w, start, if start <= stop then i else start)
    {
      ContributionSplit(w, start, i, i + 1);
      sum := sum + w(i);
      i := i + 1;
    }
  }

  /** Total contribution of a sequence of chunks. */
  function SumChunks(w: int -> real, cs: seq<Chunk>): real
  {
    if cs == [] then 0.0 else Contribution(w, cs[0].start, cs[0].stop) + SumChunks(w, cs[1..])
  }

  /** The chunks the generator hands out together contribute exactly the sum
      over the remaining domain, as a single pass would. */
  lemma {:induction false} DrainContribution(w: int -> real, c: Cursor)
    requires Ready(c)
    ensures SumChunks(w, Drain(c)) == Contribution(w, c.completed, c.points)
    decreases c.points - c.completed
  {
    if !IsLoopDone(c) {
      var n := GetNextLoop(c);
      DrainContribution(w, n);
      assert Drain(c)[1..] == Drain(n);
      ContributionSplit(w, c.completed, n.completed, c.points);
    }
  }
}

=== FILE: slot_table.dfy ===
/** The advanced controller's chunk-slot bookkeeping: a MaxProcessors x
    MaxChunk table of index pairs (index2D) and, per worker, a rotation
    counter (ChunkIndex) naming the slot to reuse next. */
module SlotTable {
  import opened Generator
  import opened Config

  type Grid = seq<seq<Chunk>>

  /** The zero-initialised chunk, as `IndexSt index2D[..][..] = {0}` leaves it. */
  const Zero := Chunk(0, 0)

  predicate GridShape(g: Grid)
  {
    |g| == MaxProcessors && forall n :: 0 <= n < |g| ==> |g[n]| == MaxChunk
  }

  function EmptyGrid(): (g: Grid)
    ensures GridShape(g)
    ensures forall n, i :: 0 <= n < MaxProcessors && 0 <= i < MaxChunk ==> g[n][i] == Zero
  {
    seq(MaxProcessors, _ => seq(MaxChunk, _ => Zero))
  }

  /** Stores chunk c in slot i of node n; nothing else changes. */
  function SetSlot(g: Grid, n: int, i: int, c: Chunk): (r: Grid)
    requires GridShape(g) && 0 <= n < MaxProcessors && 0 <= i < MaxChunk
    ensures GridShape(r)
    ensures r[n][i] == c
    ensures forall m, j :: 0 <= m < MaxProcessors && 0 <= j < MaxChunk && (m, j) != (n, i) ==> r[m][j] == g[m][j]
  {
    g[n := g[n][i := c]]
  }

  /** Every counter names a slot. */
  predicate RotationOk(rotation: seq<int>)
  {
    |rotation| == MaxProcessors && forall n :: 0 <= n < |rotation| ==> 0 <= rotation[n] < MaxChunk
  }

  /** The counters as the controller starts them: all zero. */
  function ZeroRotation(): (r: seq<int>)
    ensures RotationOk(r)
    ensures forall n :: 0 <= n < MaxProcessors ==> r[n] == 0
  {
    seq(MaxProcessors, _ => 0)
  }

  /** GetFreeChunkIndex: returns node's counter and advances it, wrapping to
      zero once it has reached 2. No other node's counter changes. */
  function GetFreeChunkIndex(node: int, rotation: seq<int>): (r: (int, seq<int>))
    requires 0 <= node < |rotation|
    ensures r.0 == rotation[node]
    ensures |r.1| == |rotation|
    ensures forall n :: 0 <= n < |rotation| && n != node ==> r.1[n] == rotation[n]
    ensures 0 <= rotation[node] < MaxChunk ==> r.1[node] == (rotation[node] + 1) % MaxChunk
    ensures RotationOk(rotation) ==> RotationOk(r.1) && 0 <= r.0 < MaxChunk
  {
    var reused := rotation[node];
    var next := if rotation[node] >= 2 then 0 else rotation[node] + 1;
    (reused, rotation[node := next])
  }

  /** The counters after k requests for the same node. */
  function Rotate(node: int, rotation: seq<int>, k: nat): seq<int>
    requires 0 <= node < |rotation|
    ensures |Rotate(node, rotation, k)| == |rotation|
  {
    if k == 0 then rotation else GetFreeChunkIndex(node, Rotate(node, rotation, k - 1)).1
  }

  /** Starting from zero, the k-th request for a node is answered with slot
      k mod 3, and the other nodes' counters never move. */
  lemma {:induction false} RotationCycles(node: int, rotation: seq<int>, k: nat)
    requires 0 <= node < |rotation| && rotation[node] == 0
    ensures GetFreeChunkIndex(node, Rotate(node, rotation, k)).0 == k % MaxChunk
    ensures forall n :: 0 <= n < |rotation| && n != node ==> Rotate(node, rotation, k)[n] == rotation[n]
  {
    if k > 0 {
      RotationCycles(node, rotation, k - 1);
    }
  }
}

=== FILE: static.dfy ===
/** The static driver (static_sched.cpp): no scheduling at run time. Rank r
    of P integrates the block [r * N / P, (r + 1) * N / P) computed with C's
    integer division, and rank 0 then collects one partial sum from each of
    ranks 1 .. P - 1, in rank order. */
module Static {
  import opened Generator
  import opened Config
  import opened Quadrature

  /** C's integer division for a positive divisor: truncates toward zero. */
  function CDiv(a: int, b: int): (q: int)
    requires b > 0
    ensures a >= 0 ==> 0 <= a - q * b < b
    ensures a < 0 ==> -b < a - q * b <= 0
  {
    if a >= 0 then a / b else -((-a) / b)
  }

  /** On a non-negative dividend C's division agrees with floor division. */
  lemma {:induction false} CDivFloor(a: int, b: int)
    requires a >= 0 && b > 0
    ensures CDiv(a, b) == a / b
  {
  }

  /** First index of rank r's block. */
  function StartIndex(rank: int, points: int, size: int): int
    requires size >= 1
  {
    CDiv(rank * points, size)
  }

  /** One past the last index of rank r's block. */
  function StopIndex(rank: int, points: int, size: int): int
    requires size >= 1
  {
    CDiv((rank + 1) * points, size)
  }

  /** The driver up to the partition: an invalid function id jumps to the
      exit before any block is computed; otherwise rank r gets its block. */
  function Setup(fid: int, points: int, size: int, rank: int): (r: Result<Chunk>)
    requires size >= 1
    ensures r.Err? <==> !(1 <= fid <= 4)
    ensures r.Err? ==> r.error == InvalidFunction
    ensures r.Ok? && points >= 0 && 0 <= rank < size ==>
      0 <= r.value.start <= r.value.stop <= points &&
      r.value.stop - r.value.start in {points / size, (points + size - 1) / size}
    ensures r.Ok? && points >= 0 && rank == 0 ==> r.value.start == 0
    ensures r.Ok? && points >= 0 && rank == size - 1 ==> r.value.stop == points
    ensures r.Ok? ==> r.value == Chunk(StartIndex(rank, points, size), StopIndex(rank, points, size))
    ensures r.Ok? && points >= 0 && 0 <= rank < size ==>
      r.value.start == rank * points / size && r.value.stop == (rank + 1) * points / size
  {
    match SelectIntegrand(fid)
    case Err(e) => Err(e)
    case Ok(_) =>
      var block := Chunk(StartIndex(rank, points, size), StopIndex(rank, points, size));
      if points >= 0 && 0 <= rank < size then
        BlockBounds(rank, points, size);
        BlockEnds(rank, points, size);
        Ok(block)
      else Ok(block)
  }

  /** Blocks are ordered: a lower rank's block never starts after a higher
      rank's. */
  lemma {:induction false} StartMonotone(r1: int, r2: int, points: int, size: int)
    requires 0 <= r1 <= r2 && points >= 0 && size >= 1
    ensures StartIndex(r1, points, size) <= StartIndex(r2, points, size)
  {
    MulMono(r1, r2, points);
    DivMono(r1 * points, r2 * points, size);
  }

  lemma {:induction false} DivMono(a: int, b: int, d: int)
    requires 0 <= a <= b && d >= 1
    ensures a / d <= b / d
  {
    if a / d > b / d {
      MulMono(b / d + 1, a / d, d);
    }
  }

  /** Each block lies in [0, points), the first starts at 0, the last ends at
      points, and its length is floor(points / size) or ceil(points / size). */
  lemma {:induction false} BlockBounds(rank: int, points: int, size: int)
    requires 0 <= rank < size && points >= 0
    ensures 0 <= StartIndex(rank, points, size) <= StopIndex(rank, points, size) <= points
    ensures StopIndex(rank, points, size) - StartIndex(rank, points, size) in {points / size, (points + size - 1) / size}
    ensures rank == 0 ==> StartIndex(rank, points, size) == 0
    ensures rank == size - 1 ==> StopIndex(rank, points, size) == points
  {
    BlockInRange(rank, points, size);
    BlockEnds(rank, points, size);
    BlockLength(rank * points, points, size);
    if rank == size - 1 {
      LastBlockEnds(points, size);
    }
  }

  /** A block lies within [0, points). */
  lemma {:induction false} BlockInRange(rank: int, points: int, size: int)
    requires 0 <= rank < size && points >= 0
    ensures 0 <= StartIndex(rank, points, size) <= StopIndex(rank, points, size) <= points
  {
    BlockEnds(rank, points, size);
    MulMono(rank + 1, size, points);
    QuotientsInRange(rank * points, points, size);
  }

  /** Floor quotients of a non-negative a and of a + points stay ordered and
      within [0, points] while a + points is at most size * points. */
  lemma {:induction false} QuotientsInRange(a: int, points: int, size: int)
    requires 0 <= a && points >= 0 && size >= 1 && a + points <= size * points
    ensures 0 <= a / size <= (a + points) / size <= points
  {
    DivMono(a, a + points, size);
    DivMono(a + points, size * points, size);
    DivUnique(size * points, size, points, 0);
  }

  /** The last rank's block ends at points. */
  lemma {:induction false} LastBlockEnds(points: int, size: int)
    requires points >= 0 && size >= 1
    ensures StopIndex(size - 1, points, size) == points
  {
    assert (size - 1 + 1) * points == size * points;
    MulMono(0, size, points);
    CDivFloor(size * points, size);
    DivUnique(size * points, size, points, 0);
  }

  /** Start and stop of rank r's block as floor quotients of rank * points
      and rank * points + points. */
  lemma {:induction false} BlockEnds(rank: int, points: int, size: int)
    requires 0 <= rank < size && points >= 0
    ensures rank * points >= 0 && (rank + 1) * points == rank * points + points
    ensures StartIndex(rank, points, size) == rank * points / size
    ensures StopIndex(rank, points, size) == (rank * points + points) / size
  {
    MulMono(0, rank, points);
    CDivFloor(rank * points, size);
    CDivFloor((rank + 1) * points, size);
  }

  /** Adding points to a non-negative dividend adds floor(points / size) or
      ceil(points / size) to its quotient. */
  lemma {:induction false} BlockLength(a: int, points: int, size: int)
    requires a >= 0 && points >= 0 && size >= 1
    ensures (a + points) / size - a / size in {points / size, (points + size - 1) / size}
  {
    var q := a / size;
    var s := a % size;
    var u := points / size;
    var v := points % size;
    var sum := s + v;
    if sum < size {
      assert a + points == (q + u) * size + sum;
      DivUnique(a + points, size, q + u, sum);
    } else {
      assert a + points == (q + u + 1) * size + (sum - size);
      DivUnique(a + points, size, q + u + 1, sum - size);
    }
    if v == 0 {
      DivUnique(points + size - 1, size, u, size - 1);
    } else {
      DivUnique(points + size - 1, size, u + 1, v - 1);
    }
  }

  /** Adjacent ranks meet exactly, so the blocks are contiguous and disjoint. */
  lemma {:induction false} BlocksMeet(rank: int, points: int, size: int)
    requires 0 <= rank < size - 1 && points >= 0
    ensures StopIndex(rank, points, size) == StartIndex(rank + 1, points, size)
  {
  }

  /** Every index of [0, points) lies in the block of exactly one rank. */
  lemma {:induction false} OwnerExists(x: int, points: int, size: int, rank: int)
    requires size >= 1 && points >= 0 && 0 <= rank < size
    requires 0 <= x < StopIndex(rank, points, size)
    ensures exists r :: 0 <= r <= rank && StartIndex(r, points, size) <= x < StopIndex(r, points, size)
    decreases rank
  {
    if x < StartIndex(rank, points, size) {
      assert rank > 0;
      OwnerExists(x, points, size, rank - 1);
    }
  }

  /** The blocks of all ranks partition [0, points): each index has an owner,
      and two different ranks own no common index. */
  lemma {:induction false} BlocksPartition(x: int, points: int, size: int)
    requires size >= 1 && points >= 0
    ensures 0 <= x < points <==>
      exists r :: 0 <= r < size && StartIndex(r, points, size) <= x < StopIndex(r, points, size)
    ensures forall r1, r2 :: 0 <= r1 < r2 < size ==> StopIndex(r1, points, size) <= StartIndex(r2, points, size)
  {
    BlockBounds(size - 1, points, size);
    if 0 <= x < points {
      OwnerExists(x, points, size, size - 1);
    }
    forall r | 0 <= r < size
      ensures 0 <= StartIndex(r, points, size) && StopIndex(r, points, size) <= points
    {
      BlockBounds(r, points, size);
    }
    forall r1, r2 | 0 <= r1 < r2 < size
      ensures StopIndex(r1, points, size) <= StartIndex(r2, points, size)
    {
      StartMonotone(r1 + 1, r2, points, size);
    }
  }

  /** Rank 0's side after its own block: it adds its own partial sum, then
      receives one partial sum from each rank 1 .. size - 1, in rank order.
      The result is the sum over the whole domain, as a single pass would
      give it. */
  method CollectOnRankZero(w: int -> real, points: int, size: int) returns (total: real, order: seq<int>)
    requires size >= 1 && points >= 0
    ensures |order| == size - 1
    ensures forall k :: 0 <= k < |order| ==> order[k] == k + 1
    ensures total == Contribution(w, 0, points)
  {
    BlockBounds(0, points, size);
    total := Contribution(w, StartIndex(0, points, size), StopIndex(0, points, size));
    order := [];
    var node := 1;
    while node < size
      invariant 1 <= node <= size
      invariant |order| == node - 1
      invariant forall k :: 0 <= k < |order| ==> order[k] == k + 1
      invariant total == Contribution(w, 0, StopIndex(node - 1, points, size))
    {
      BlockBounds(node, points, size);
      ContributionSplit(w, 0, StartIndex(node, points, size), StopIndex(node, points, size));
      total := total + Contribution(w, StartIndex(node, points, size), StopIndex(node, points, size));
      order := order + [node];
      node := node + 1;
    }
    BlockBounds(size - 1, points, size);
  }
}
